=== FILE: README.md ===
# kdbpy translation core in Dafny

This project models the Blaze-to-q translator of `kdbpy/compute/core.py`. The translator
turns a Blaze query-expression tree into a q (kdb+) abstract syntax tree. It has one rule
per node kind. Each rule takes the node and its already translated operand(s) and builds a
q fragment. Three parts are modelled:

- **Scope stripping** (`Scope`): `get`, `compute_atom`, `desubs` and `_desubs`. This
  rewrite removes a redundant `table.` prefix from the names inside a fragment.
- **Literal coercion** (`Literals`): `qify` and the two `into(q.Atom, date/datetime)` rules.
  Dates and datetimes are rendered in q's fixed-width literal syntax, and a reader gives
  the round trip.
- **The rule table** (`Rules`): every `compute_up` rule, `nrows`, `compute_down` for
  `nelements`, and both `compute_slice` rules.

Three further modules support them:

- `QAst` is the q syntax tree. A q builder such as `q.take` is a list headed by the
  builder's atom.
- `QEval` is a small evaluator for the integer part of q that the head, slice, minute and
  microsecond rules emit. It lets the model state what those fragments compute on a table.
- `Translate` is the composition driver: Blaze's `compute` walking the tree bottom-up. It
  binds a leaf for the rules that call `compute` themselves. The element count is used in
  corrected form (see Findings); `Translate.ComputeAsWritten` keeps Blaze's dispatch as the
  source meets it, which tries `compute_down` at the root first.

Everything is pure: the source builds fresh values and mutates nothing, so the model is
datatypes, functions and lemmas.

Modelling choices:

- The operator tables `q.binops` and `q.unops` are parameters (`Translate.Tables`). A
  missing operator is an error result.
- `pd.Timestamp(x)`, used by `qify` to recognise date strings, is a parser parameter. It
  answers `None` where the parser raises `ValueError`, including pandas'
  `OutOfBoundsDatetime`, so every timestamp it returns lies within pandas' range.
- `pd.Timestamp(d)` of a datetime operand fails outside pandas' range, 1677-09-21
  00:12:43.145224193 to 2262-04-11 23:47:16.854775807 (2**63 - 1 nanoseconds either side
  of the epoch); `Literals.InPandasRange` computes it from the calendar. The midnight test
  also builds `pd.Timestamp(d.date())`, which fails when the midnight starting the day lies
  outside that range: on 1677-09-21 after 00:12:43.145224193. `strftime`, under
  Python 2, fails for years before 1900. Inside `qify`'s handler for strings either failure
  gives the symbol list; for date and datetime operands it is an error result.
- The `try/except TypeError` of the field rule is an explicit tag. Only a `Symbol` (a table
  or column reference) can be indexed by name, as `table.name`. Anything else takes the
  `q.slice` branch.
- `q.select` and `q.Dict` are not part of this model, so three of their behaviours are
  assumptions here:
  - the slots that `q.select` fills when they are missing are `NoConstraints`,
    `NoGrouper` and `AllColumns`;
  - a `q.select` is a `q.List` of the `?` marker and its four slots, so a nested select
    is walked as a list;
  - a `q.Dict` iterates over its keys, as a Python dict does. A dictionary handed to
    `desubs` itself therefore keeps only its rewritten keys, rebuilt as a `q.List`
    (kdbpy/compute/core.py:89-90), while a dictionary met as a child keeps keys and
    values (kdbpy/compute/core.py:112-114). `Scope.Visible` lists the names the walk
    actually visits, and the names lemmas are stated over it.
- One might expect the scope rewrite to be idempotent. The code is not, and the model
  follows the code. `Scope.DesubsNotIdempotent` and `Scope.DesubsCollapsesTwice` show two
  inputs that change on a second pass:
  - a doubly scoped name `t.t.x`;
  - a list whose only item is a one-element list, which `get` collapses once more.

  `Scope.DesubsTwiceNames` states exactly when a second pass leaves the names alone.
- Datetimes carry nanoseconds, as `pd.Timestamp` does. The midnight test compares them,
  and `%f` writes only the microseconds, so a literal reads back to the microsecond.
- Blaze's `compute_down` receives the data of the expression's leaves, a sub-expression
  bound in the scope standing as a leaf (`Translate.ScopeLeaves`); the `nelements` rule
  applies when there is exactly one such leaf and it is bound.
- The millisecond rule, the range slice rule and the element count are used in corrected
  form by the rest of the model (see Findings).

## Model

| member | source | states |
|---|---|---|
| QAst.Call | kdbpy/compute/core.py:220-222 | a q builder application is a list headed by the builder atom and followed by its arguments in order |
| QAst.SymList | kdbpy/compute/core.py:244 | `symlist` holds one plain symbol per key name, in order |
| Scope.FirstDot | kdbpy/compute/core.py:95 | the split point of `s.split('.', 1)` is the first dot, and there is none exactly when `s` has no dot |
| Scope.ComputeAtom | kdbpy/compute/core.py:93-98 | a name whose part before its first dot is the table loses that prefix and keeps its kind; any other atom is returned unchanged |
| Scope.Get | kdbpy/compute/core.py:40-65 | a one-element list is unwrapped to its element; any other list is kept |
| Scope.Desubs | kdbpy/compute/core.py:68-90 | host strings, numbers and booleans pass through; an atom keeps its kind and loses the table prefix; a select stays a select; any other input gives no dictionary unless a single element is unwrapped |
| Scope.Child | kdbpy/compute/core.py:101-116 | one child of the walk keeps its kind and length: a list stays a list and a dictionary a dictionary of as many entries; a nested select becomes a five-item list headed by `?` |
| Scope.KeyChildren | kdbpy/compute/core.py:89-90 | a dictionary handed to `desubs` yields one rewritten child per key |
| Scope.KeyChildrenAt | kdbpy/compute/core.py:89-90 | the `i`-th such child is the rewritten `i`-th key |
| Scope.Children | kdbpy/compute/core.py:105-116 | the walk rewrites every child of a fragment in place and keeps the order |
| Scope.DesubsAll | kdbpy/compute/core.py:111-112 | a nested list is rebuilt from the `desubs` of each item, in order |
| Scope.Entries | kdbpy/compute/core.py:113-115 | a dictionary keeps its number of entries under the rewrite |
| Scope.EntriesAt | kdbpy/compute/core.py:113-115 | each entry's key and value are rewritten together, in place |
| Scope.StripAll | kdbpy/compute/core.py:93-98 | stripping a list of names strips each name in place |
| Scope.GetNames | kdbpy/compute/core.py:62-64 | `get` neither adds nor loses names |
| Scope.DesubsNames | kdbpy/compute/core.py:68-116 | the names of the rewritten fragment are the names the walk visits, in order, each with the table prefix removed where it had one |
| Scope.ChildNames | kdbpy/compute/core.py:105-116 | the same holds for one child of a walked fragment, a nested dictionary keeping keys and values |
| Scope.ChildrenNames | kdbpy/compute/core.py:105-116 | the same holds for all children of a walked fragment |
| Scope.DesubsAllNames | kdbpy/compute/core.py:111 | the same holds for the items of a nested list |
| Scope.EntriesNames | kdbpy/compute/core.py:112-114 | the same holds for the keys and values of a nested dictionary |
| Scope.KeysNames | kdbpy/compute/core.py:89-90 | the names of a dictionary's rewritten keys are its keys' visited names, stripped in order |
| Scope.VisibleDictFree | kdbpy/compute/core.py:101-116 | in a fragment without dictionaries the walk visits every name |
| Scope.VisibleAllDictFree | kdbpy/compute/core.py:105-111 | the same holds for a list of such fragments |
| Scope.DesubsDictFree | kdbpy/compute/core.py:68-116 | the rewrite of a fragment without dictionaries has no dictionary |
| Scope.ChildDictFree | kdbpy/compute/core.py:105-116 | the same holds for one child of the walk |
| Scope.DesubsDictKeysOnly | kdbpy/compute/core.py:89-90 | a one-entry dictionary rewrites to its stripped key; a two-entry one to the list of its keys, values dropped |
| Scope.MarkerNotScoped | kdbpy/compute/core.py:87-89 | the leading `?` of a select is never a scoped name |
| Scope.StripLeavesScope | kdbpy/compute/core.py:93-98 | a stripped name is still scoped, and a second strip changes it, exactly when it was doubly scoped |
| Scope.DesubsRemovesScope | kdbpy/compute/core.py:68-116 | after the rewrite no name is scoped by the table exactly when no visited input name was doubly scoped |
| Scope.DesubsTwiceNames | kdbpy/compute/core.py:68-116 | when the rewritten fragment shows all its names, a second rewrite leaves them unchanged exactly when no visited input name was doubly scoped; for a fragment without dictionaries, exactly when no input name was |
| Scope.DesubsNotIdempotent | kdbpy/compute/core.py:68-116 | counterexample to idempotence: `t.t.x` goes to `t.x` and then to `x` |
| Scope.DesubsCollapsesTwice | kdbpy/compute/core.py:68-116 | counterexample to idempotence: `((a))` goes to `(a)` and then to `a` |
| Scope.DocExamples | kdbpy/compute/core.py:52-85 | the docstring examples of `get` and `desubs` hold |
| Scope.ComputeAtomExamples | kdbpy/compute/core.py:93-98 | only the first dot splits (`t.a.b` becomes `a.b`); another table's name and an undotted name are kept |
| Scope.DesubsShape | kdbpy/compute/core.py:68-116 | host strings, numbers and booleans pass through; atoms go through `compute_atom`; a list is rebuilt child by child, a dictionary from its keys only and a select slot by slot; a one-element result is unwrapped |
| Literals.Pad | kdbpy/compute/core.py:124 | a zero-padded field has exactly its width and only digits |
| Literals.DaysIn | kdbpy/compute/core.py:127-129 | the length of a month, used to bound the day of a date, is 28 to 31 days |
| Literals.DaysBeforeMonth | kdbpy/compute/core.py:122 | the days before a month's first lie between 0 and 335 |
| Literals.DaysBeforeNextMonth | kdbpy/compute/core.py:122 | consecutive months' first days are as far apart as the earlier month is long |
| Literals.EpochDaysExamples | kdbpy/compute/core.py:122 | the day count is 0 at 1970-01-01 and 10957 at 2000-01-01, and 29 February 2000 sits between its neighbours |
| Literals.PandasRangeEnds | kdbpy/compute/core.py:122 | 1677-09-21 00:12:43.145224193 and 2262-04-11 23:47:16.854775807 are within pandas' range, one nanosecond further out is not |
| Literals.PadValue | kdbpy/compute/core.py:124 | a padded field reads back as the number written |
| Literals.RenderDate | kdbpy/compute/core.py:129 | `%Y.%m.%d` renders a date in ten characters |
| Literals.RenderDateTime | kdbpy/compute/core.py:124 | `%Y.%m.%dD%H:%M:%S.%f000` renders a datetime in 29 characters |
| Literals.IntoDate | kdbpy/compute/core.py:127-129 | a date becomes a ten-character atom exactly when its year is 1900 or later; otherwise `strftime`'s error |
| Literals.MidnightOf | kdbpy/compute/core.py:122 | `d.date()` as a datetime is the same day at midnight, and a datetime at midnight is its own |
| Literals.MidnightInRangeFrom1900 | kdbpy/compute/core.py:122 | from 1900 on, the midnight starting a timestamp's day is within pandas' range too |
| Literals.MidnightBeforeRange | kdbpy/compute/core.py:122 | noon on 1677-09-21 is within pandas' range and the midnight starting that day is not |
| Literals.IntoDateTime | kdbpy/compute/core.py:119-124 | when the datetime or the midnight of its day is outside pandas' range the result is pandas' error, otherwise before 1900 `strftime`'s; it succeeds exactly within pandas' range from 1900 on, as an atom that is a date literal exactly when the datetime is at midnight, and then equals the date's literal |
| Literals.ReadRenderedDate | kdbpy/compute/core.py:129 | the date format reads back as the date |
| Literals.ReadRenderedDateTime | kdbpy/compute/core.py:124 | the datetime format reads back as the datetime truncated to the microsecond |
| Literals.IntoDateReadsBack | kdbpy/compute/core.py:127-129 | round trip: the literal written for a date, when one is written, denotes that date |
| Literals.IntoDateTimeReadsBack | kdbpy/compute/core.py:119-124 | round trip: the literal written for a datetime, when one is written, denotes that datetime to the microsecond, narrowed or not |
| Literals.QifyMeaning | kdbpy/compute/core.py:144-171 | numbers pass through; a string that does not parse, or parses to a year before 1900, becomes a one-symbol list; every date, datetime or other parsed string that pandas and `strftime` accept becomes an atom denoting that value to the microsecond |
| Literals.RenderExample | kdbpy/compute/core.py:129 | 2 January 2014 renders as `2014.01.02` |
| Literals.QifyExamples | kdbpy/compute/core.py:149-160 | the docstring examples of `qify` hold |
| Literals.Qify | kdbpy/compute/core.py:144-171 | an integer passes through and a string never fails, becoming a one-symbol list when it does not parse or its year is before 1900; a date succeeds exactly from 1900 on and a datetime exactly within pandas' range from 1900 on, as a ten- or 29-character atom; a datetime outside pandas' range, or whose day starts outside it, gives pandas' error |
| Literals.NanosecondsNotWritten | kdbpy/compute/core.py:119-124 | one nanosecond past midnight is not midnight, so it is written as a datetime, and the literal reads back as midnight |
| Literals.QifyRefusesOutOfRange | kdbpy/compute/core.py:119-124 | `qify` of a datetime in 3000 or of noon on 1677-09-21 fails with pandas' error, and of a date or datetime in 1850 with `strftime`'s |
| Rules.Member | kdbpy/compute/core.py:199-203 | `data[name]` exists only for a symbol and is the dotted symbol `data.name` |
| Rules.ProjectionUp | kdbpy/compute/core.py:132-135 | a select over the data with no constraints or grouping, mapping each field to itself, in order |
| Rules.BinOpUp | kdbpy/compute/core.py:138-141 | the operator's q form is applied to both operands in source order; an unknown operator fails |
| Rules.BinOpLiteralUp | kdbpy/compute/core.py:174-181 | an unknown operator fails first; otherwise the result succeeds exactly when `qify` of the literal does, passes on its error, and keeps the coerced literal on its side |
| Rules.ReductionUp | kdbpy/compute/core.py:184-188 | a reduction translates exactly when its axis is `(0,)` and its operator is known |
| Rules.UnaryUp | kdbpy/compute/core.py:191-193 | the operator's q form is applied to the operand; an unknown operator fails |
| Rules.FieldUp | kdbpy/compute/core.py:196-203 | a field of a symbol is the dotted member; of anything else it is `slice(data, `name)` |
| Rules.SelectionUp | kdbpy/compute/core.py:206-210 | a select over the data whose constraints hold the one predicate, with no grouping and all columns |
| Rules.DateTimeUp | kdbpy/compute/core.py:213-217 | the member under the field's q name (`day` is `dd`, ...), for a symbol only |
| Rules.QDateTimeName | kdbpy/compute/core.py:32-37 | the rename table of date and time fields; `Rules.DateTimeExamples` states its entries |
| Rules.MicrosecondUp | kdbpy/compute/core.py:220-222 | `floor(div(mod(long(data), 1000000000), 1000))`; `QEval.MicrosecondInSecond` states what it evaluates to |
| Rules.MillisecondUp | kdbpy/compute/core.py:225-227 | millisecond is the `//` operator applied to the microsecond translation and 1000; fails if `//` is unknown |
| Rules.MinuteUp | kdbpy/compute/core.py:230-235 | minute is `mod(long(data.minute), 60)`, for a symbol only |
| Rules.JoinUp | kdbpy/compute/core.py:238-244 | a join translates exactly when it is inner and both key lists are equal, to `ej` on the keys and both sides |
| Rules.SortUp | kdbpy/compute/core.py:247-249 | the `sort` builder is applied to the data, the key and the direction, in that order |
| Rules.Zip | kdbpy/compute/core.py:255 | names are paired with aggregates position by position, up to the shorter list |
| Rules.SummaryUp | kdbpy/compute/core.py:252-256 | a summary is a select whose child is the stripped data; `Rules.SummaryShape` states the aggregates |
| Rules.ByParts | kdbpy/compute/core.py:261-266 | a select operand is opened into its child and constraints; anything else has no constraints |
| Rules.ByUp | kdbpy/compute/core.py:259-271 | a group-by translates exactly when the apply is a select and the child is named; the result selects from the child with the one constraint list, the dictionary from the grouper's name to the stripped grouper, and the apply's stripped aggregates |
| Rules.OneItemStripped | kdbpy/compute/core.py:270-271 | wrapping one constraint in a list and stripping it equals stripping the constraint alone |
| Rules.ByOverTable | kdbpy/compute/core.py:259-271 | a group-by over a plain table selects from the table with no constraints, the grouper's name mapped to the stripped grouper, and the stripped aggregates |
| Rules.NElementsUp | kdbpy/compute/core.py:278-284 | counts only along the first axis; a table symbol with fields is counted through a fresh plain symbol, anything else as it is |
| Rules.HeadUp | kdbpy/compute/core.py:287-300 | head takes `min(n, nrows)` rows, through `partake(data, til(...))` when the table is partitioned |
| Rules.SliceAt | kdbpy/compute/core.py:303-312 | an integer index is shifted by the row count when negative and applied to the data; a record result is enlisted |
| Rules.SliceRangeAsWritten | kdbpy/compute/core.py:315-326 | the range rule as written, with `stop or nrows` and no clamping; `QEval.SliceStopZeroAsWritten` shows its stop-0 case and `QEval.SliceOutOfOrderAsWritten` its unordered and out-of-table cases |
| Rules.SliceUp | kdbpy/compute/core.py:329-350 | a slice translates exactly when it has one index; an integer index gives the integer rule's result and a range the range rule's |
| Rules.DistinctUp | kdbpy/compute/core.py:353-355 | the `distinct` builder is applied to the data alone |
| Rules.FieldThenDesubs | kdbpy/compute/core.py:196-203 | a field of table `t`, stripped of scope `t`, is the bare column |
| Rules.BinOpKeepsOrder | kdbpy/compute/core.py:138-141 | swapping two different operands changes the translation |
| Rules.BinOpLiteralExamples | kdbpy/compute/core.py:174-181 | the docstring example `s.name == 'Alice'` holds, and a literal on the left stays on the left |
| Rules.MillisecondIsFloorDiv | kdbpy/compute/core.py:225-227 | the millisecond rule equals the literal binary-operation rule for `//` with 1000 on the right |
| Rules.DateTimeExamples | kdbpy/compute/core.py:32-37 | `day` and `second` go through the rename table; other fields keep their name; a non-symbol fails |
| Rules.ByMergesSelection | kdbpy/compute/core.py:259-271 | a group-by over a filtered table is one select over the table itself, with the filter's clause, the grouper and the aggregates, all scope-stripped |
| Rules.SummaryShape | kdbpy/compute/core.py:252-256 | a summary is one select whose aggregates pair each name with its aggregate, in order, scope-stripped |
| Rules.SummaryStripsScope | kdbpy/compute/core.py:252-256 | no summary aggregate still names the leaf table unless a name the walk visits in its expression named it twice over |
| QEval.CountsRows | kdbpy/compute/core.py:274-284 | counting a table along the first axis gives its number of rows |
| QEval.HeadTakesMin | kdbpy/compute/core.py:287-300 | head evaluates to exactly the first `min(n, rows)` rows, partitioned or not |
| QEval.NaiveTakeRepeats | kdbpy/compute/core.py:291-295 | an unclamped take of more rows than the table has repeats rows, and so differs from head |
| QEval.SliceAtRow | kdbpy/compute/core.py:303-312 | an index inside the table picks that row, counted from the end when negative; a record is a one-row table |
| QEval.SliceRangeRows | kdbpy/compute/core.py:315-326 | the range rule as written evaluates to the rows from its normalised start to its normalised stop (a stop of 0 read as the row count); it fails when the stop is before the start and when the rows reach outside the table |
| QEval.AsWrittenBounds | kdbpy/compute/core.py:315-324 | the bounds as written: a missing start is 0, a missing or zero stop the row count, a negative bound shifted by the row count |
| QEval.ContiguousOutside | kdbpy/compute/core.py:326 | `start + til(stop - start)` reaching outside the table selects nothing |
| QEval.ClampedBound | kdbpy/compute/core.py:315-324 | the corrected rule's start, shifted and clamped into the table, is Python's clamped start |
| QEval.CorrectedBounds | kdbpy/compute/core.py:315-324 | the corrected rule's bounds are Python's start, and Python's stop moved up to the start |
| QEval.SliceRangeIsPythonSlice | kdbpy/compute/core.py:315-326 | the corrected range rule (`Rules.SliceRange`) evaluates to Python's slice `v[start:stop]` for every pair of bounds, inside the table or not |
| QEval.SliceOutOfOrderAsWritten | kdbpy/compute/core.py:319-326 | on a five-row table, as written `t[3:1]` and `t[:100]` fail where Python gives no rows and all rows; the corrected rule gives Python's |
| QEval.SliceStopZeroAsWritten | kdbpy/compute/core.py:317 | as written, `v[:0]` selects every row where Python's is empty; the corrected rule gives no rows |
| QEval.MinuteWraps | kdbpy/compute/core.py:230-235 | minute evaluates to the raw minute modulo 60, always in 0..59 (65 gives 5) |
| QEval.MicrosecondInSecond | kdbpy/compute/core.py:220-222 | microsecond evaluates to the nanoseconds within the second divided by 1000, always in 0..999999 |
| Translate.FirstLeaf | kdbpy/compute/core.py:256 | `expr._leaves()[0]` is one of the expression's leaves |
| Translate.Compute | kdbpy/compute/core.py:254 | a bound expression is its binding, whatever rule would apply; an element count along another axis than the first fails |
| Translate.ComputeWith | kdbpy/compute/core.py:227 | `compute(expr, data)` binds the expression's one leaf to the data and fails when there is not exactly one leaf; a leaf alone is the data |
| Translate.Up | kdbpy/compute/core.py:132-355 | the bottom-up walk: a binding wins, an unbound leaf fails, and an element count along another axis than the first fails; head and slice take their row count from `nrows`; the lemmas below state what the other nodes translate to |
| Translate.Merge | kdbpy/compute/core.py:278-284 | two operands have one leaf together exactly when one has it and the other has none or the same one |
| Translate.LeafData | kdbpy/compute/core.py:278-284 | the data `compute_down` receives: a bound expression's own binding, and otherwise data exactly when the expression has one leaf and it is bound |
| Translate.ScopeLeavesOfOneTable | kdbpy/compute/core.py:278-284 | with only table `l` bound, an expression over `l` has `l` as its one leaf, or no leaf at all |
| Translate.ScopeLeavesAllOfOneTable | kdbpy/compute/core.py:278-284 | the same holds for a list of summary values |
| Translate.Nrows | kdbpy/compute/core.py:274-275 | `nrows` fails unless the child has exactly one leaf, which `compute` binds to the data; `Translate.NrowsAsWritten` states what it counts |
| Translate.NrowsAsWritten | kdbpy/compute/core.py:274-284 | for a child over one table, `nrows` is `compute(child.nrows, data)` under Blaze's dispatch: the count of the translated child |
| Translate.ExprName | kdbpy/compute/core.py:268 | a leaf or a field is named by its own name |
| Translate.ComputeAll | kdbpy/compute/core.py:254 | the translated summary values are as many as the values |
| Translate.ComputeAllOk | kdbpy/compute/core.py:254 | the summary values translate exactly when each one does |
| Translate.ComputeAllOkIfEach | kdbpy/compute/core.py:254 | summary values that each translate translate together |
| Translate.ComputeAllOkOnlyIfEach | kdbpy/compute/core.py:254 | summary values that translate together each translate |
| Translate.ComputeAllAt | kdbpy/compute/core.py:254 | each translated summary value is that value's own translation, in order |
| Translate.MillisecondAsWritten | kdbpy/compute/core.py:225-227 | the millisecond rule as written: `compute(child.microsecond // 1000, data)`; the lemmas below state what it does |
| Translate.MillisecondAsWrittenRetranslates | kdbpy/compute/core.py:225-227 | as written, millisecond translates the child a second time, against the child's own translation bound to its leaf |
| Translate.MillisecondAsWrittenOfColumn | kdbpy/compute/core.py:225-227 | as written, the millisecond of column `t.ts` is taken of `t.ts.ts` |
| Translate.MillisecondOfColumn | kdbpy/compute/core.py:225-227 | with the corrected rule, the millisecond of column `t.ts` is taken of `t.ts` |
| Translate.MillisecondAsWrittenRescopes | kdbpy/compute/core.py:225-227 | as written, the millisecond of column `t.ts` reads `t.ts.ts`; the corrected rule reads `t.ts` |
| Translate.MillisecondIsMicrosecondDiv | kdbpy/compute/core.py:220-227 | the corrected millisecond is exactly the translation of `child.microsecond // 1000` on the same child |
| Translate.MillisecondOfChild | kdbpy/compute/core.py:225-227 | the corrected millisecond applies the millisecond rule to the child's translation |
| Translate.FloorDivOfMicrosecond | kdbpy/compute/core.py:220-227 | `child.microsecond // 1000` translates to the millisecond rule applied to the child's translation |
| Translate.ComputeAsWritten | kdbpy/compute/core.py:278-284 | Blaze's dispatch as written: an element count at the root is counted from the data of its one bound leaf; without one, the child is translated and no rule applies |
| Translate.NElementsAsWrittenIgnoresFilter | kdbpy/compute/core.py:278-284 | as written, the element count of `t[cond]` is the count of the whole table `t`, for every `cond` over `t` |
| Translate.NElementsAsWrittenOfOneTable | kdbpy/compute/core.py:278-284 | as written, the element count of any expression over one bound table is the count of that table's data |
| Translate.NElementsAsWrittenOfSum | kdbpy/compute/core.py:278-284 | as written, `(t.a + 1).nrows` counts the data bound to `t` |
| Translate.NElementsOfFilter | kdbpy/compute/core.py:278-284 | with the corrected rule, the element count of `t[cond]` counts the filtering select, unlike the code as written |
| Translate.CountOfChild | kdbpy/compute/core.py:278-284 | with the corrected rule, an element count along the first axis counts the translation of its child |
| Translate.NElementsAgreesOnLeaf | kdbpy/compute/core.py:278-284 | the corrected driver agrees with the code as written on every other expression and on the element count of a bound leaf |
| Translate.JoinOnlyInner | kdbpy/compute/core.py:238-244 | a join that is not inner, or whose keys differ, never translates |
| Translate.ReductionOnlyFirstAxis | kdbpy/compute/core.py:184-188 | a reduction along another axis never translates |
| Translate.SliceOnlyOneIndex | kdbpy/compute/core.py:329-350 | a slice with other than one index never translates; with one index it translates exactly when its child does and `nrows` of the child succeeds |
| Translate.HeadOfJoinRefused | kdbpy/compute/core.py:274-295 | the head of a join of two tables fails: `nrows` hands its lone data to an expression with two leaves |
| Translate.SliceOfLeaf | kdbpy/compute/core.py:329-350 | the slice of a bound table is the slice rule applied to the table's data |
| Translate.HeadOfTable | kdbpy/compute/core.py:274-300 | `t.head(n)` evaluates to the first `min(n, rows)` rows, and differs from an unclamped take when `n` exceeds the rows |
| Translate.RangeOfTable | kdbpy/compute/core.py:315-350 | `t[a:b]` evaluates to Python's slice of the rows, whatever the bounds |
| Translate.RowOfTable | kdbpy/compute/core.py:303-350 | `t[i]` with `i` inside the table evaluates to row `i`, counted from the end when negative |
| Translate.ByOfParts | kdbpy/compute/core.py:259-268 | a group-by whose operand, grouper and apply translate is handed to the group-by rule with the grouper's name and the operand opened up |
| Translate.ByOverFilter | kdbpy/compute/core.py:259-268 | a group-by of a filtered table hands the group-by rule the table, the filter's constraints, the column name and the translated apply |
| Translate.FilterGroupCollapses | kdbpy/compute/core.py:206-271 | filter, group-by and summary together translate to one select over the table, with the filter clause, the grouping column and the summary's aggregates, all scope-stripped |
| Translate.GroupTableByColumn | kdbpy/compute/core.py:259-271 | `t.by(t.g, apply)` over a plain table is one select from the table with no constraints, `g` mapped to itself, and the apply's stripped aggregates |

## Left out

- The three `compute_down` rules over live tables (kdbpy/compute/core.py:358-402) end in a remote evaluation over the wire. They are not part of this model. Neither are `resource_kdb` and `into(DataFrame, QTable)` (kdbpy/compute/core.py:405-412), which open connections. into/backends/tests/test_ssh.py is file and network I/O and is not part of this model.
- The q builders (`q.select`, `q.take`, `q.binops`, ...) and their printing are not part of this model. A builder is a list headed by its name, and the operator tables are parameters.
- Blaze itself is not part of this model: its expression classes, dshapes, `_leaves`, `_name` and `compute`. The expression tree is `Translate.Expr`. A record dshape is a flag on `Slice`. `Translate.ComputeAsWritten` reproduces the dispatch order used here: a binding in scope, then `compute_down` at the root, then `compute_up` bottom-up.
- Translate.ExprName: only leaves, fields and nodes that keep their child's shape are named. Blaze's derived names for reductions and arithmetic are not modelled, so a group-by on such a grouper fails with `NoName`.
- `pd.Timestamp` parsing is an oracle parameter. Its equality test `pd.Timestamp(d) == pd.Timestamp(d.date())`, once both sides exist, is modelled as "the time of day is midnight".
- Literals.IntoDateTime: only time-zone-naive datetimes are modelled. A datetime carrying a time zone is not, nor is pandas' conversion of it to UTC; the same holds for `Literals.Qify` and `Literals.QifyMeaning`.
- Scope.Desubs: `q.Dict` and `q.select` are not part of this model. A dictionary handed to `desubs` is assumed to iterate over its keys, so its values are dropped; a `q.select` is assumed to be a `q.List` of `?` and its four slots, walked as a list when nested. The defaults `NoConstraints`, `NoGrouper` and `AllColumns` that `q.select` fills in are assumed too.
- Rules.SummaryShape: kdbpy/compute/core.py:256 passes the leaf expression itself, not its name, as the table to strip, so whether `compute_atom`'s comparison ever matches depends on Blaze's comparison of a string with an expression, which is not part of this model. The model strips with the leaf's name, the evident intent.
- Rules.SummaryStripsScope: stated for the leaf's name, for the reason given for `Rules.SummaryShape`.
- Rules.SummaryUp: strips with the leaf's name, for the reason given for `Rules.SummaryShape`.
- Literals.Qify: floats and booleans as literal operands are not modelled. Only strings, dates, datetimes and integers are.
- The `assert not isinstance(x, Expr)` of `qify` holds by construction, since a literal operand is a separate type.
- Rules.SortUp: a sort on a list of keys is not modelled. The key is one column name.
- Slice steps (`t[a:b:c]`) are not modelled. The source ignores them too.
- QEval: indexing past the end of a table gives q's null rows; the evaluator has no nulls and gives no value there, so `QEval.SliceRangeRows` reports such a slice as failing.
- QEval covers only the integer fragment of q: tables are single integer columns, and `long` and `floor` are the identity on integers. Floating point is not modelled.

## Findings

| source | as written | input that shows it | evidently intended | confidence | as-written member | corrected member |
|---|---|---|---|---|---|---|
| kdbpy/compute/core.py:317 | `stop = index.stop or nrows` turns a stop of 0 into the row count | `t[:0]` on a non-empty table selects every row | a missing stop means the row count; a stop of 0 selects nothing, as in Python | not executed; high | Rules.SliceRangeAsWritten, QEval.SliceStopZeroAsWritten | Rules.SliceRange, QEval.SliceRangeIsPythonSlice |
| kdbpy/compute/core.py:319-326 | the bounds are neither clamped into the table nor ordered before `til(stop - start)` | `t[3:1]` on a five-row table asks `til` for -2 elements; `t[:100]` indexes rows 5 to 99 | Python's slice: no rows for `t[3:1]`, every row for `t[:100]` | not executed; medium (`til` of a negative count is taken as q's domain error) | Rules.SliceRangeAsWritten, QEval.SliceRangeRows, QEval.SliceOutOfOrderAsWritten | Rules.SliceRange, QEval.SliceRangeIsPythonSlice |
| kdbpy/compute/core.py:225-227 | `compute(expr._child.microsecond // 1000, data)` binds the child's leaf to the already translated child, so the child is translated twice | `t.ts.millisecond` with `t` bound to the table `t` reads `t.ts.ts` | millisecond reuses the microsecond translation of the child, divided by 1000 | not executed; medium (follows Blaze's leaf binding for `compute(expr, data)`) | Translate.MillisecondAsWritten, Translate.MillisecondAsWrittenRescopes, Translate.MillisecondAsWrittenOfColumn | Rules.MillisecondUp, Translate.MillisecondIsMicrosecondDiv |
| kdbpy/compute/core.py:278-284 | Blaze tries `compute_down` at the root with the data bound to the leaf, so the `nelements` rule counts that data and never sees the expression's child | `t[t.a > 0].nrows` with `t` bound to a table with fields counts every row of `t` | the element count counts the translated child, as the rule's own test for a `q.select` argument expects | not executed; medium (follows Blaze's compute_down-first dispatch) | Translate.ComputeAsWritten, Translate.NElementsAsWrittenIgnoresFilter | Translate.Compute, Translate.NElementsOfFilter |

=== FILE: literals.dfy ===
/** Literal coercion: `qify` and the two `into(q.Atom, date/datetime)` rules of
    kdbpy/compute/core.py. Dates and datetimes are written in q's fixed-width literal syntax,
    `YYYY.MM.DD` and `YYYY.MM.DDDhh:mm:ss.nnnnnnnnn`; a datetime at midnight narrows to a date. */
module Literals {
  import opened QAst

  datatype Date = Date(year: int, month: int, day: int)
  /** A pandas timestamp: a Python datetime with nanoseconds below the microsecond. */
  datatype DateTime = DateTime(date: Date, hour: int, minute: int, second: int, micro: int, nano: int)

  predicate LeapYear(y: int) {
    y % 4 == 0 && (y % 100 != 0 || y % 400 == 0)
  }

  /** Days in `month` of the Gregorian `year`. */
  function DaysIn(year: int, month: int): (r: int)
    ensures 28 <= r <= 31
  {
    if month == 2 then (if LeapYear(year) then 29 else 28)
    else if month == 4 || month == 6 || month == 9 || month == 11 then 30
    else 31
  }

  /** The field ranges Python's `datetime.date` guarantees, the day bounded by its month. */
  predicate ValidDate(d: Date) {
    1 <= d.year <= 9999 && 1 <= d.month <= 12 && 1 <= d.day <= DaysIn(d.year, d.month)
  }

  /** The field ranges of a time-zone-naive Python datetime, with the nanoseconds a pandas
      timestamp adds below the microsecond. */
  predicate ValidDateTime(dt: DateTime) {
    ValidDate(dt.date) && 0 <= dt.hour < 24 && 0 <= dt.minute < 60 && 0 <= dt.second < 60
    && 0 <= dt.micro < 1000000 && 0 <= dt.nano < 1000
  }

  /** Days from 1 January of year 1 to 1 January of `year`, in the proleptic Gregorian
      calendar Python uses. */
  function DaysBeforeYear(year: int): int {
    var y := year - 1;
    365 * y + y / 4 - y / 100 + y / 400
  }

  /** Days from 1 January to the first of `month` in `year`. */
  function DaysBeforeMonth(year: int, month: int): (r: int)
    ensures 0 <= r <= 335
  {
    var leap := if month > 2 && LeapYear(year) then 1 else 0;
    leap + (if month <= 1 then 0 else if month == 2 then 31 else if month == 3 then 59
            else if month == 4 then 90 else if month == 5 then 120 else if month == 6 then 151
            else if month == 7 then 181 else if month == 8 then 212 else if month == 9 then 243
            else if month == 10 then 273 else if month == 11 then 304 else 334)
  }

  /** Days since 1970-01-01, the epoch of pandas timestamps. */
  function EpochDays(d: Date): int {
    DaysBeforeYear(d.year) + DaysBeforeMonth(d.year, d.month) + d.day - 1 - DaysBeforeYear(1970)
  }

  /** Nanoseconds since the epoch, the value a pandas timestamp stores in a signed 64-bit
      integer. */
  function EpochNanos(dt: DateTime): int {
    (((EpochDays(dt.date) * 24 + dt.hour) * 60 + dt.minute) * 60 + dt.second) * 1000000000
    + dt.micro * 1000 + dt.nano
  }

  /** The smallest 64-bit value is pandas' not-a-time marker, so a timestamp lies within
      2**63 - 1 nanoseconds of the epoch either way. */
  const MaxEpochNanos := 0x7FFF_FFFF_FFFF_FFFF

  /** `pd.Timestamp(dt)` succeeds: `dt` lies between 1677-09-21 00:12:43.145224193 and
      2262-04-11 23:47:16.854775807; outside, pandas raises OutOfBoundsDatetime. */
  predicate InPandasRange(dt: DateTime) {
    -MaxEpochNanos <= EpochNanos(dt) <= MaxEpochNanos
  }

  /** Consecutive months are as far apart as the earlier one is long. */
  lemma DaysBeforeNextMonth(year: int, month: int)
    requires 1 <= month < 12
    ensures DaysBeforeMonth(year, month + 1) == DaysBeforeMonth(year, month) + DaysIn(year, month)
  {
  }

  /** The day count is anchored at the epoch and agrees with known dates: 2000-01-01 is
      day 10957, and the day after 28 February 2000 (a leap year) is the 29th. */
  lemma EpochDaysExamples()
    ensures EpochDays(Date(1970, 1, 1)) == 0
    ensures EpochDays(Date(2000, 1, 1)) == 10957
    ensures EpochDays(Date(2000, 2, 29)) == EpochDays(Date(2000, 2, 28)) + 1
    ensures EpochDays(Date(2000, 3, 1)) == EpochDays(Date(2000, 2, 29)) + 1
  {
  }

  /** The ends of pandas' range, to the nanosecond: 1677-09-21 00:12:43.145224193 and
      2262-04-11 23:47:16.854775807 are timestamps, one nanosecond further out is not. */
  lemma PandasRangeEnds()
    ensures InPandasRange(DateTime(Date(1677, 9, 21), 0, 12, 43, 145224, 193))
    ensures !InPandasRange(DateTime(Date(1677, 9, 21), 0, 12, 43, 145224, 192))
    ensures InPandasRange(DateTime(Date(2262, 4, 11), 23, 47, 16, 854775, 807))
    ensures !InPandasRange(DateTime(Date(2262, 4, 11), 23, 47, 16, 854775, 808))
  {
  }

  type CalendarDate = d: Date | ValidDate(d) witness Date(1970, 1, 1)
  /** A Python `datetime.datetime` (or a pandas timestamp, which is one). */
  type PyDateTime = dt: DateTime | ValidDateTime(dt) witness DateTime(Date(1970, 1, 1), 0, 0, 0, 0, 0)
  /** A value pandas can hold as a timestamp. */
  type Timestamp = dt: DateTime | ValidDateTime(dt) && InPandasRange(dt)
    witness DateTime(Date(1970, 1, 1), 0, 0, 0, 0, 0)

  /** `pd.Timestamp(d) == pd.Timestamp(d.date())`: the time of day is exactly midnight, to the
      nanosecond. */
  predicate Midnight(dt: DateTime) {
    dt.hour == 0 && dt.minute == 0 && dt.second == 0 && dt.micro == 0 && dt.nano == 0
  }

  /** The same day at midnight: `d.date()` as a datetime. */
  function MidnightOf(dt: DateTime): (r: DateTime)
    ensures r.date == dt.date && Midnight(r)
    ensures Midnight(dt) ==> r == dt
  {
    DateTime(dt.date, 0, 0, 0, 0, 0)
  }

  /** From 1900 on, the midnight starting a timestamp's day is a timestamp too: it is no
      later than the timestamp and far above pandas' lower end. */
  lemma MidnightInRangeFrom1900(dt: DateTime)
    requires ValidDateTime(dt)
    ensures InPandasRange(dt) && dt.date.year >= FirstRenderableYear ==> InPandasRange(MidnightOf(dt))
  {
    assert EpochNanos(MidnightOf(dt)) <= EpochNanos(dt);
    if dt.date.year >= FirstRenderableYear {
      var y := dt.date.year - 1;
      assert y / 4 >= y / 100;
      assert DaysBeforeYear(dt.date.year) >= 365 * 1899;
      assert EpochDays(dt.date) >= 365 * 1899 - DaysBeforeYear(1970);
    }
  }

  /** The last day pandas' range only partly covers: 21 September 1677 at noon is a
      timestamp, but the midnight starting it is not. */
  lemma MidnightBeforeRange()
    ensures var dt := DateTime(Date(1677, 9, 21), 12, 0, 0, 0, 0);
            InPandasRange(dt) && !InPandasRange(MidnightOf(dt))
  {
  }

  /** The timestamp cut to whole microseconds: what `%f` keeps of it. */
  function ToMicros(dt: DateTime): (r: DateTime)
    ensures r.nano == 0 && r.date == dt.date && r.micro == dt.micro
  {
    dt.(nano := 0)
  }

  // ---------------------------------------------------------------------------------------
  // Fixed-width decimal fields.

  function Pow10(w: nat): nat {
    if w == 0 then 1 else 10 * Pow10(w - 1)
  }

  predicate IsDigit(c: char) {
    '0' <= c <= '9'
  }

  predicate AllDigits(s: string) {
    forall i :: 0 <= i < |s| ==> IsDigit(s[i])
  }

  /** `n` written in exactly `w` decimal digits, zero-padded on the left (`%m`, `%f`, ...). */
  function Pad(n: nat, w: nat): (r: string)
    requires n < Pow10(w)
    ensures |r| == w && AllDigits(r)
  {
    if w == 0 then "" else Pad(n / 10, w - 1) + [('0' as int + n % 10) as char]
  }

  /** The number a string of decimal digits denotes. */
  function DigitsValue(s: string): nat
    requires AllDigits(s)
  {
    if s == [] then 0 else 10 * DigitsValue(s[..|s| - 1]) + (s[|s| - 1] as int - '0' as int)
  }

  lemma {:induction false} PadValue(n: nat, w: nat)
    requires n < Pow10(w)
    ensures DigitsValue(Pad(n, w)) == n
  {
    if w > 0 {
      var r := Pad(n, w);
      assert r[..|r| - 1] == Pad(n / 10, w - 1);
      PadValue(n / 10, w - 1);
    }
  }

  // ---------------------------------------------------------------------------------------
  // Rendering (`strftime`).

  /** `d.strftime('%Y.%m.%d')`. */
  function RenderDate(d: CalendarDate): (r: string)
    ensures |r| == 10
  {
    Pad(d.year, 4) + "." + Pad(d.month, 2) + "." + Pad(d.day, 2)
  }

  /** `d.strftime('%Y.%m.%dD%H:%M:%S.%f000')`: microseconds padded to six digits, then three
      zero digits, so the fraction is in nanoseconds; the timestamp's own nanoseconds are
      not written. */
  function RenderDateTime(dt: PyDateTime): (r: string)
    ensures |r| == 29
  {
    RenderDate(dt.date) + "D" + Pad(dt.hour, 2) + ":" + Pad(dt.minute, 2) + ":" + Pad(dt.second, 2)
    + "." + Pad(dt.micro, 6) + "000"
  }

  /** Python 2's `strftime` raises ValueError for a year before 1900. */
  const FirstRenderableYear := 1900

  /** `into(q.Atom, date)`: fails where `strftime` raises. */
  function IntoDate(d: CalendarDate): (r: Result<QExpr>)
    ensures r.Ok? <==> d.year >= FirstRenderableYear
    ensures r.Err? ==> r.error == YearNotRenderable
    ensures r.Ok? ==> r.value.Atom? && |r.value.s| == 10
  {
    if d.year < FirstRenderableYear then Err(YearNotRenderable) else Ok(Atom(RenderDate(d)))
  }

  /** `into(q.Atom, datetime)`: the test `pd.Timestamp(d) == pd.Timestamp(d.date())` fails
      when either the datetime or the midnight of its day lies outside pandas' range; past
      it, a datetime at midnight is rendered as its date, and any other one in full, both
      through `strftime`. */
  function IntoDateTime(dt: PyDateTime): (r: Result<QExpr>)
    ensures !InPandasRange(dt) || !InPandasRange(MidnightOf(dt)) ==> r == Err(OutOfBoundsDatetime)
    ensures InPandasRange(dt) && InPandasRange(MidnightOf(dt)) && dt.date.year < FirstRenderableYear
            ==> r == Err(YearNotRenderable)
    ensures r.Ok? <==> InPandasRange(dt) && dt.date.year >= FirstRenderableYear
    ensures r.Ok? ==> r.value.Atom? && (|r.value.s| == 10 <==> Midnight(dt))
    ensures Midnight(dt) && InPandasRange(dt) ==> r == IntoDate(dt.date)
  {
    MidnightInRangeFrom1900(dt);
    if !InPandasRange(dt) || !InPandasRange(MidnightOf(dt)) then Err(OutOfBoundsDatetime)
    else if Midnight(dt) then IntoDate(dt.date)
    else if dt.date.year < FirstRenderableYear then Err(YearNotRenderable)
    else Ok(Atom(RenderDateTime(dt)))
  }

  // ---------------------------------------------------------------------------------------
  // Reading a literal back: the partner of the renderers.

  /** The date a `YYYY.MM.DD` literal denotes. */
  function ReadDate(s: string): Option<Date> {
    if |s| == 10 && s[4] == '.' && s[7] == '.'
       && AllDigits(s[..4]) && AllDigits(s[5..7]) && AllDigits(s[8..])
    then Some(Date(DigitsValue(s[..4]), DigitsValue(s[5..7]), DigitsValue(s[8..])))
    else None
  }

  /** The datetime a `YYYY.MM.DDDhh:mm:ss.uuuuuu000` literal denotes. */
  function ReadDateTime(s: string): Option<DateTime> {
    if |s| == 29 && ReadDate(s[..10]).Some? && s[10] == 'D' && s[13] == ':' && s[16] == ':'
       && s[19] == '.' && s[26..] == "000"
       && AllDigits(s[11..13]) && AllDigits(s[14..16]) && AllDigits(s[17..19])
       && AllDigits(s[20..26])
    then Some(DateTime(ReadDate(s[..10]).value, DigitsValue(s[11..13]), DigitsValue(s[14..16]),
                       DigitsValue(s[17..19]), DigitsValue(s[20..26]), 0))
    else None
  }

  /** Either literal form, a date standing for its midnight. */
  function ReadLiteral(s: string): Option<DateTime> {
    if |s| == 10 then
      match ReadDate(s)
      case Some(d) => Some(DateTime(d, 0, 0, 0, 0, 0))
      case None => None
    else ReadDateTime(s)
  }

  lemma ReadRenderedDate(d: CalendarDate)
    ensures ReadDate(RenderDate(d)) == Some(d)
  {
    var s := RenderDate(d);
    assert s[..4] == Pad(d.year, 4);
    assert s[5..7] == Pad(d.month, 2);
    assert s[8..] == Pad(d.day, 2);
    PadValue(d.year, 4);
    PadValue(d.month, 2);
    PadValue(d.day, 2);
  }

  lemma ReadRenderedDateTime(dt: PyDateTime)
    ensures ReadDateTime(RenderDateTime(dt)) == Some(ToMicros(dt))
  {
    var s := RenderDateTime(dt);
    assert s[..10] == RenderDate(dt.date);
    assert s[11..13] == Pad(dt.hour, 2);
    assert s[14..16] == Pad(dt.minute, 2);
    assert s[17..19] == Pad(dt.second, 2);
    assert s[20..26] == Pad(dt.micro, 6);
    assert s[26..] == "000";
    ReadRenderedDate(dt.date);
    PadValue(dt.hour, 2);
    PadValue(dt.minute, 2);
    PadValue(dt.second, 2);
    PadValue(dt.micro, 6);
  }

  /** Round trip: the literal `into` writes for a date reads back as that date. */
  lemma IntoDateReadsBack(d: CalendarDate)
    ensures IntoDate(d).Ok? ==> ReadDate(IntoDate(d).value.s) == Some(d)
  {
    ReadRenderedDate(d);
  }

  /** Round trip: the literal `into` writes for a datetime reads back as that datetime cut to
      whole microseconds, whether it was narrowed to a date (midnight) or not. */
  lemma IntoDateTimeReadsBack(dt: PyDateTime)
    ensures IntoDateTime(dt).Ok? ==> ReadLiteral(IntoDateTime(dt).value.s) == Some(ToMicros(dt))
  {
    if IntoDateTime(dt).Err? {
    } else if Midnight(dt) {
      ReadRenderedDate(dt.date);
    } else {
      ReadRenderedDateTime(dt);
    }
  }

  // ---------------------------------------------------------------------------------------
  // `qify`.

  /** A host value that can stand on the literal side of a binary operation. */
  datatype Literal =
    | Text(s: string)
    | Day(d: CalendarDate)
    | Moment(dt: PyDateTime)
    | Int(n: int)

  /** `qify(x)`. A string is first offered to the timestamp parser `parse` (the role of
      `pd.Timestamp(x)`, which answers None where it raises ValueError) and the timestamp
      rendered; when either step raises ValueError (a year `strftime` refuses), the string
      becomes a one-element symbol list. Dates and datetimes are rendered outside that
      handler, so their errors propagate; numbers pass through unchanged. */
  function Qify(x: Literal, parse: string -> Option<Timestamp>): (r: Result<QExpr>)
    ensures x.Int? ==> r == Ok(Num(x.n))
    ensures x.Text? ==> r.Ok?
    ensures x.Text? && (parse(x.s).None? || parse(x.s).value.date.year < FirstRenderableYear)
            ==> r == Ok(List([Symbol(x.s, Plain)]))
    ensures x.Day? ==> (r.Ok? <==> x.d.year >= FirstRenderableYear)
    ensures x.Moment? ==> (r.Ok? <==> InPandasRange(x.dt) && x.dt.date.year >= FirstRenderableYear)
    ensures x.Moment? && (!InPandasRange(x.dt) || !InPandasRange(MidnightOf(x.dt))) ==> r == Err(OutOfBoundsDatetime)
    ensures r.Ok? && (x.Day? || x.Moment? || (x.Text? && parse(x.s).Some? && parse(x.s).value.date.year >= FirstRenderableYear))
            ==> r.value.Atom? && (|r.value.s| == 10 || |r.value.s| == 29)
  {
    match x
    case Text(s) =>
      (match parse(s)
       case Some(ts) =>
         (match IntoDateTime(ts)
          case Ok(a) => Ok(a)
          case Err(_) => Ok(List([Symbol(s, Plain)])))
       case None => Ok(List([Symbol(s, Plain)])))
    case Day(d) => IntoDate(d)
    case Moment(dt) => IntoDateTime(dt)
    case Int(n) => Ok(Num(n))
  }

  /** What `qify` yields for each kind of literal: numbers unchanged, a string that is not a
      renderable timestamp as a one-symbol list, and for every date or time value that
      pandas and `strftime` accept an atom whose literal reads back as that value (to the
      microsecond). */
  lemma QifyMeaning(x: Literal, parse: string -> Option<Timestamp>)
    ensures x.Int? ==> Qify(x, parse) == Ok(Num(x.n))
    ensures x.Text? && (parse(x.s).None? || parse(x.s).value.date.year < FirstRenderableYear)
            ==> Qify(x, parse) == Ok(List([Symbol(x.s, Plain)]))
    ensures x.Text? && parse(x.s).Some? && parse(x.s).value.date.year >= FirstRenderableYear ==>
              Qify(x, parse).Ok? && Qify(x, parse).value.Atom?
              && ReadLiteral(Qify(x, parse).value.s) == Some(ToMicros(parse(x.s).value))
    ensures x.Moment? && InPandasRange(x.dt) && x.dt.date.year >= FirstRenderableYear ==>
              Qify(x, parse).Ok? && Qify(x, parse).value.Atom?
              && ReadLiteral(Qify(x, parse).value.s) == Some(ToMicros(x.dt))
    ensures x.Day? && x.d.year >= FirstRenderableYear ==>
              Qify(x, parse).Ok? && Qify(x, parse).value.Atom? && ReadDate(Qify(x, parse).value.s) == Some(x.d)
  {
    match x
    case Text(s) =>
      if parse(s).Some? && parse(s).value.date.year >= FirstRenderableYear {
        IntoDateTimeReadsBack(parse(s).value);
      }
    case Day(d) => IntoDateReadsBack(d);
    case Moment(dt) => IntoDateTimeReadsBack(dt);
    case Int(_) =>
  }

  lemma RenderExample()
    ensures RenderDate(Date(2014, 1, 2)) == "2014.01.02"
  {
    assert Pad(2, 1) == "2";
    assert Pad(20, 2) == "20";
    assert Pad(201, 3) == "201";
    assert Pad(2014, 4) == "2014";
    assert Pad(0, 1) == "0";
    assert Pad(1, 2) == "01";
    assert Pad(2, 2) == "02";
  }

  /** The examples of the `qify` docstring: `qify(1)` is `1`, a date string or a timestamp at
      midnight gives `2014.01.02`, and `'Alice'` gives the symbol list `(,:[`Alice])`. */
  lemma QifyExamples(parse: string -> Option<Timestamp>)
    requires parse("2014-01-02") == Some(DateTime(Date(2014, 1, 2), 0, 0, 0, 0, 0))
    requires parse("Alice") == None
    ensures Qify(Int(1), parse) == Ok(Num(1))
    ensures Qify(Text("2014-01-02"), parse) == Ok(Atom("2014.01.02"))
    ensures Qify(Moment(DateTime(Date(2014, 1, 2), 0, 0, 0, 0, 0)), parse) == Ok(Atom("2014.01.02"))
    ensures Qify(Text("Alice"), parse) == Ok(List([Symbol("Alice", Plain)]))
  {
    RenderExample();
  }

  /** Nanoseconds make a timestamp miss midnight, yet `%f` does not write them: one
      nanosecond past midnight is rendered as a full datetime of zero time, and reads back
      as midnight itself. */
  lemma NanosecondsNotWritten()
    ensures var dt := DateTime(Date(2014, 1, 2), 0, 0, 0, 0, 1);
            !Midnight(dt) && IntoDateTime(dt).Ok? && |IntoDateTime(dt).value.s| == 29
            && ReadLiteral(IntoDateTime(dt).value.s) == Some(DateTime(Date(2014, 1, 2), 0, 0, 0, 0, 0))
  {
    IntoDateTimeReadsBack(DateTime(Date(2014, 1, 2), 0, 0, 0, 0, 1));
  }

  /** A datetime pandas cannot hold is not rendered: `qify` of 1 January 3000, 01:00 fails
      with pandas' error, and so does noon on 21 September 1677, whose midnight pandas
      cannot hold; 2 January 1850, 01:00 fails with `strftime`'s error. */
  lemma QifyRefusesOutOfRange(parse: string -> Option<Timestamp>)
    ensures Qify(Moment(DateTime(Date(3000, 1, 1), 1, 0, 0, 0, 0)), parse) == Err(OutOfBoundsDatetime)
    ensures Qify(Moment(DateTime(Date(1677, 9, 21), 12, 0, 0, 0, 0)), parse) == Err(OutOfBoundsDatetime)
    ensures Qify(Moment(DateTime(Date(1850, 1, 2), 1, 0, 0, 0, 0)), parse) == Err(YearNotRenderable)
    ensures Qify(Day(Date(1850, 1, 2)), parse) == Err(YearNotRenderable)
  {
    assert !InPandasRange(DateTime(Date(3000, 1, 1), 1, 0, 0, 0, 0));
    MidnightBeforeRange();
    assert InPandasRange(DateTime(Date(1850, 1, 2), 1, 0, 0, 0, 0));
    assert InPandasRange(DateTime(Date(1850, 1, 2), 0, 0, 0, 0, 0));
  }
}

=== FILE: qast.dfy ===
/** The fragment of the q (kdb+) abstract syntax tree that the translator builds,
    and the failure-compatible result type its rules return. */
module QAst {

  datatype Option<+T> = None | Some(value: T)

  /** Why a translation rule gives up (the source raises an exception). */
  datatype Error =
    | AxisNotSupported        // reduction or nelements with axis other than (0,)
    | JoinNotInner            // a join whose `how` is not "inner"
    | JoinKeysDiffer          // a join whose left and right key columns differ
    | NotSingleSlice          // a slice with other than exactly one index
    | NotIndexable            // `data[name]` on a q value that has no members
    | UnknownOperator(op: string)  // operator symbol missing from the operator table
    | NoAggregates            // `.aggregates` of a value that is not a select
    | NoName                  // `.s` of a value that is not an atom or symbol
    | UnboundLeaf             // a leaf expression with no binding in the scope
    | LeafNotUnique           // compute(expr, data) on an expression without exactly one leaf
    | NoExpressionOperand     // a binary operation none of whose operands is an expression
    | NoRule                  // a node kind with no `compute_up` rule for a q operand
    | OutOfBoundsDatetime     // `pd.Timestamp` of a datetime outside pandas' range
    | YearNotRenderable       // `strftime` of a year before 1900 (Python 2)

  datatype Result<+T> = Ok(value: T) | Err(error: Error) {
    predicate IsFailure() { Err? }
    function PropagateFailure<U>(): Result<U>
      requires Err?
    {
      Err(error)
    }
    function Extract(): T
      requires Ok?
    {
      value
    }
  }

  /** Physical facts about a table that only a table symbol bound to a live table carries. */
  datatype Meta = Meta(fields: seq<string>, partitioned: bool, splayed: bool)

  /** What a freshly built `q.Symbol(name)` carries. */
  const Plain := Meta([], false, false)

  datatype QExpr =
    | Atom(s: string)                 // q.Atom: an operator name or a rendered literal
    | Symbol(s: string, meta: Meta)   // q.Symbol, possibly dotted as `table.column`
    | Str(text: string)               // a host string put into a list as it is ('ej', '@', ',:')
    | Num(n: int)                     // a host integer put into the tree as it is
    | Bool(b: bool)                   // q.Bool
    | List(items: seq<QExpr>)         // q.List: first item usually the function applied
    | Dict(entries: seq<(QExpr, QExpr)>)
    | Select(child: QExpr, constraints: QExpr, grouper: QExpr, aggregates: QExpr)

  /** The constant first item of a functional select, `?[t; c; b; a]`. */
  const SelectMarker := "?"

  /** Application of the q builder `fn` (q.add, q.til, q.take, ...) to `args`. */
  function Call(fn: string, args: seq<QExpr>): (r: QExpr)
    ensures r.List? && |r.items| == |args| + 1 && r.items[0] == Atom(fn) && r.items[1..] == args
  {
    List([Atom(fn)] + args)
  }

  /** Different arguments make different applications. */
  lemma CallInjective(fn: string, a: seq<QExpr>, b: seq<QExpr>)
    ensures Call(fn, a) == Call(fn, b) ==> a == b
  {
    if Call(fn, a) == Call(fn, b) {
      assert a == Call(fn, a).items[1..];
    }
  }

  /** `q.symlist(names)`: a list of plain symbols, one per name, in order. */
  function SymList(names: seq<string>): (r: QExpr)
    ensures r.List? && |r.items| == |names|
    ensures forall i :: 0 <= i < |names| ==> r.items[i] == Symbol(names[i], Plain)
  {
    List(seq(|names|, i requires 0 <= i < |names| => Symbol(names[i], Plain)))
  }

  /** Defaults of `q.select` for a slot the caller leaves out. */
  const NoConstraints := List([])
  const NoGrouper := Bool(false)
  const AllColumns := List([])
}

=== FILE: qeval.dfy ===
/** A small evaluator for the integer part of q that the head, slice, minute and microsecond
    rules emit (`add`, `sub`, `and`, `or`, `til`, `count`, `take`, `partake`, `mod`, `div`, `long`,
    `floor`, indexing and enlisting), so that what those fragments compute can be stated
    against a concrete table. A table is a vector of integer rows; `env` binds names to values. */
module QEval {
  import opened QAst
  import opened Rules

  datatype Val = I(i: int) | V(v: seq<int>)

  function Add(a: Val, b: Val): Option<Val> {
    match (a, b)
    case (I(x), I(y)) => Some(I(x + y))
    case (I(x), V(ys)) => Some(V(seq(|ys|, k requires 0 <= k < |ys| => x + ys[k])))
    case (V(xs), I(y)) => Some(V(seq(|xs|, k requires 0 <= k < |xs| => xs[k] + y)))
    case (V(xs), V(ys)) =>
      if |xs| == |ys| then Some(V(seq(|xs|, k requires 0 <= k < |xs| => xs[k] + ys[k]))) else None
  }

  function Sub(a: Val, b: Val): Option<Val> {
    if a.I? && b.I? then Some(I(a.i - b.i)) else None
  }

  /** `&` on two integers is their minimum. */
  function Min(a: Val, b: Val): Option<Val> {
    if a.I? && b.I? then Some(I(if a.i <= b.i then a.i else b.i)) else None
  }

  /** `|` on two integers is their maximum. */
  function Max(a: Val, b: Val): Option<Val> {
    if a.I? && b.I? then Some(I(if a.i >= b.i then a.i else b.i)) else None
  }

  /** `til n`: 0, 1, ..., n - 1; a negative count is a domain error. */
  function Til(a: Val): Option<Val> {
    if a.I? && a.i >= 0 then Some(V(seq(a.i, k => k))) else None
  }

  function Count(a: Val): Val {
    match a
    case I(_) => I(1)
    case V(xs) => I(|xs|)
  }

  /** `n # xs`: the first n items, repeating xs cyclically when n exceeds its length. */
  function Take(a: Val, b: Val): Option<Val> {
    if a.I? && a.i >= 0 && b.V? && (a.i == 0 || |b.v| > 0)
    then Some(V(seq(a.i, k requires 0 <= k < a.i => b.v[k % |b.v|])))
    else None
  }

  /** `xs[i]` for one index or a vector of indices; an index outside the vector gives no value. */
  function At(a: Val, b: Val): Option<Val> {
    match (a, b)
    case (V(xs), I(i)) => if 0 <= i < |xs| then Some(I(xs[i])) else None
    case (V(xs), V(ix)) =>
      if forall k :: 0 <= k < |ix| ==> 0 <= ix[k] < |xs|
      then Some(V(seq(|ix|, k requires 0 <= k < |ix| => xs[ix[k]])))
      else None
    case _ => None
  }

  function Enlist(a: Val): Option<Val> {
    if a.I? then Some(V([a.i])) else None
  }

  /** q's `mod` and `div` round toward negative infinity; for the positive divisors used here
      that is Dafny's `%` and `/`. */
  function Mod(a: Val, b: Val): Option<Val> {
    if a.I? && b.I? && b.i > 0 then Some(I(a.i % b.i)) else None
  }

  function Div(a: Val, b: Val): Option<Val> {
    if a.I? && b.I? && b.i > 0 then Some(I(a.i / b.i)) else None
  }

  function Apply1(f: string, a: Val): Option<Val> {
    if f == "til" then Til(a)
    else if f == "count" then Some(Count(a))
    else if (f == "long" || f == "floor") && a.I? then Some(a)
    else None
  }

  function Apply2(f: string, a: Val, b: Val): Option<Val> {
    if f == "add" then Add(a, b)
    else if f == "sub" then Sub(a, b)
    else if f == "and" then Min(a, b)
    else if f == "or" then Max(a, b)
    else if f == "take" then Take(a, b)
    else if f == "partake" then At(a, b)
    else if f == "mod" then Mod(a, b)
    else if f == "div" then Div(a, b)
    else None
  }

  function Eval(e: QExpr, env: map<string, Val>): Option<Val> {
    match e
    case Num(n) => Some(I(n))
    case Symbol(s, _) => if s in env then Some(env[s]) else None
    case List(xs) =>
      if |xs| == 3 && xs[0] == Str("@") then
        (match (Eval(xs[1], env), Eval(xs[2], env))
         case (Some(a), Some(b)) => At(a, b)
         case _ => None)
      else if |xs| == 2 && xs[0] == Str(",:") then
        (match Eval(xs[1], env)
         case Some(a) => Enlist(a)
         case None => None)
      else if |xs| == 2 && xs[0].Atom? then
        (match Eval(xs[1], env)
         case Some(a) => Apply1(xs[0].s, a)
         case None => None)
      else if |xs| == 3 && xs[0].Atom? then
        (match (Eval(xs[1], env), Eval(xs[2], env))
         case (Some(a), Some(b)) => Apply2(xs[0].s, a, b)
         case _ => None)
      else if |xs| == 2 then
        (match (Eval(xs[0], env), Eval(xs[1], env))
         case (Some(a), Some(b)) => At(a, b)
         case _ => None)
      else None
    case _ => None
  }

  lemma EvalCall1(f: string, a: QExpr, env: map<string, Val>)
    ensures Eval(Call(f, [a]), env) == if Eval(a, env).Some? then Apply1(f, Eval(a, env).value) else None
  {
    assert Call(f, [a]).items == [Atom(f), a];
  }

  lemma EvalCall2(f: string, a: QExpr, b: QExpr, env: map<string, Val>)
    ensures Eval(Call(f, [a, b]), env)
         == if Eval(a, env).Some? && Eval(b, env).Some? then Apply2(f, Eval(a, env).value, Eval(b, env).value) else None
  {
    assert Call(f, [a, b]).items == [Atom(f), a, b];
  }

  // ---------------------------------------------------------------------------------------
  // Row counts and head.

  /** Counting a table symbol along the first axis gives its number of rows. */
  lemma CountsRows(t: string, m: Meta, env: map<string, Val>, v: seq<int>)
    requires t in env && env[t] == V(v)
    ensures NElementsUp([0], Symbol(t, m)).Ok?
    ensures Eval(NElementsUp([0], Symbol(t, m)).value, env) == Some(I(|v|))
  {
    EvalCall1("count", Symbol(t, Plain), env);
    EvalCall1("count", Symbol(t, m), env);
  }

  /** A non-empty index run that starts before the table or ends past it picks a row that
      is not there. */
  lemma IndexOutside(v: seq<int>, a: int, b: int)
    requires a < b && (a < 0 || b > |v|)
    ensures Til(I(b - a)) == Some(V(seq(b - a, k => k)))
    ensures Add(I(a), V(seq(b - a, k => k))) == Some(V(seq(b - a, k => a + k)))
    ensures At(V(v), V(seq(b - a, k => a + k))) == None
  {
    var ys: seq<int> := seq(b - a, k => k);
    var ix: seq<int> := seq(b - a, k => a + k);
    var sum := Add(I(a), V(ys)).value.v;
    assert forall k :: 0 <= k < |sum| ==> sum[k] == ix[k];
    assert sum == ix;
    var k := if a < 0 then 0 else b - a - 1;
    assert !(0 <= ix[k] < |v|);
  }

  /** `til(b - a)` shifted by `a` indexes exactly the rows a..b. */
  lemma IndexRange(v: seq<int>, a: int, b: int)
    requires 0 <= a <= b <= |v|
    ensures Til(I(b - a)) == Some(V(seq(b - a, k => k)))
    ensures Add(I(a), V(seq(b - a, k => k))) == Some(V(seq(b - a, k => a + k)))
    ensures At(V(v), V(seq(b - a, k => a + k))) == Some(V(v[a..b]))
  {
    var ys: seq<int> := seq(b - a, k => k);
    var ix: seq<int> := seq(b - a, k => a + k);
    var sum := Add(I(a), V(ys)).value.v;
    assert forall k :: 0 <= k < |sum| ==> sum[k] == ix[k];
    assert sum == ix;
    var r := At(V(v), V(ix)).value.v;
    assert forall k :: 0 <= k < |r| ==> r[k] == v[a..b][k];
    assert r == v[a..b];
  }

  lemma ModBelow(j: int, n: int)
    requires 0 <= j < n
    ensures j % n == j
  {
  }

  /** Taking no more items than there are takes a prefix, without repetition. */
  lemma TakeFirst(v: seq<int>, k: int)
    requires 0 <= k <= |v|
    ensures Take(I(k), V(v)) == Some(V(v[..k]))
  {
    if k > 0 {
      var w := seq(k, j requires 0 <= j < k => v[j % |v|]);
      assert Take(I(k), V(v)) == Some(V(w));
      forall j | 0 <= j < k
        ensures w[j] == v[j]
      {
        ModBelow(j, |v|);
      }
      assert w == v[..k];
    }
  }

  /** Head takes exactly the first min(n, rows) rows, through `take` or, for a partitioned
      table, `partake`; so it never returns more rows than the table has. */
  lemma HeadTakesMin(n: int, t: string, m: Meta, rows: QExpr, env: map<string, Val>, v: seq<int>)
    requires n >= 0 && t in env && env[t] == V(v) && Eval(rows, env) == Some(I(|v|))
    ensures var k := if n <= |v| then n else |v|;
            Eval(HeadUp(n, Symbol(t, m), rows), env) == Some(V(v[..k]))
  {
    var k := if n <= |v| then n else |v|;
    EvalCall2("and", Num(n), rows, env);
    assert Eval(Clamp(n, rows), env) == Some(I(k));
    if m.partitioned {
      EvalCall1("til", Clamp(n, rows), env);
      EvalCall2("partake", Symbol(t, m), Call("til", [Clamp(n, rows)]), env);
      IndexRange(v, 0, k);
      assert seq(k - 0, j => 0 + j) == seq(k, j => j);
      assert v[0..k] == v[..k];
    } else {
      EvalCall2("take", Clamp(n, rows), Symbol(t, m), env);
      TakeFirst(v, k);
    }
  }

  /** Without the clamp, q's take repeats rows: asking for more rows than the table has
      returns more rows than it has, unlike head. */
  lemma NaiveTakeRepeats(n: int, t: string, m: Meta, env: map<string, Val>, v: seq<int>)
    requires 0 < |v| < n && t in env && env[t] == V(v)
    ensures var r := Eval(Call("take", [Num(n), Symbol(t, m)]), env);
            r.Some? && r.value.V? && |r.value.v| == n && r.value.v[|v|] == v[0]
    ensures Eval(Call("take", [Num(n), Symbol(t, m)]), env)
         != Eval(HeadUp(n, Symbol(t, m), NElementsUp([0], Symbol(t, m)).value), env)
  {
    EvalCall2("take", Num(n), Symbol(t, m), env);
    assert |v| % |v| == 0;
    CountsRows(t, m, env, v);
    HeadTakesMin(n, t, m, NElementsUp([0], Symbol(t, m)).value, env, v);
  }

  // ---------------------------------------------------------------------------------------
  // Slices.

  /** One bound normalised on its own: a negative bound counts from the end. */
  function Bound(i: int, n: int): int {
    if i < 0 then i + n else i
  }

  /** The start and stop a range slice denotes for a table of n rows. */
  function StartOf(start: Option<int>, n: int): int {
    Bound(if start.None? then 0 else start.value, n)
  }

  /** The stop the range rule as written uses: `index.stop or nrows` reads a stop of 0 as a
      missing one. */
  function StopAsWritten(stop: Option<int>, n: int): int {
    if stop.None? || stop.value == 0 then n else Bound(stop.value, n)
  }

  /** Python's own slice `v[start:stop]`, clamping each bound into the sequence. */
  function PyBound(i: int, n: nat): (r: nat)
    ensures r <= n
  {
    if i < 0 then (if i + n < 0 then 0 else i + n) else if i > n then n else i
  }

  function PySlice(v: seq<int>, start: Option<int>, stop: Option<int>): seq<int> {
    var lo := if start.None? then 0 else PyBound(start.value, |v|);
    var hi := if stop.None? then |v| else PyBound(stop.value, |v|);
    if lo < hi then v[lo..hi] else []
  }

  /** An integer index, negative ones shifted by the row count, picks that row; a record
      result is enlisted into a one-row table. */
  lemma SliceAtRow(i: int, t: string, m: Meta, rows: QExpr, record: bool, env: map<string, Val>, v: seq<int>)
    requires t in env && env[t] == V(v) && Eval(rows, env) == Some(I(|v|))
    requires -|v| <= i < |v|
    ensures 0 <= Bound(i, |v|) < |v|
    ensures !record ==> Eval(SliceAt(i, Symbol(t, m), rows, record), env) == Some(I(v[Bound(i, |v|)]))
    ensures record ==> Eval(SliceAt(i, Symbol(t, m), rows, record), env) == Some(V([v[Bound(i, |v|)]]))
  {
    EvalCall2("add", Num(i), rows, env);
    assert Eval(FromEnd(i, rows), env) == Some(I(Bound(i, |v|)));
    var q := List([Symbol(t, m), FromEnd(i, rows)]);
    assert Eval(q, env) == Some(I(v[Bound(i, |v|)]));
    if record {
      assert SliceAt(i, Symbol(t, m), rows, record) == List([Str(",:"), q]);
    }
  }

  /** A range slice indexes the child with the vector `start + til(stop - start)`. */
  lemma EvalContiguous(child: QExpr, startQ: QExpr, stopQ: QExpr, env: map<string, Val>)
    ensures var ix := Call("add", [startQ, Call("til", [Call("sub", [stopQ, startQ])])]);
            Eval(Contiguous(child, startQ, stopQ), env)
              == if Eval(child, env).Some? && Eval(ix, env).Some? then At(Eval(child, env).value, Eval(ix, env).value) else None
  {
    var ix := Call("add", [startQ, Call("til", [Call("sub", [stopQ, startQ])])]);
    assert Contiguous(child, startQ, stopQ).items == [Str("@"), child, ix];
  }

  /** The index vector `start + til(stop - start)` of a range slice. */
  lemma ContiguousRows(child: QExpr, a: int, b: int, startQ: QExpr, stopQ: QExpr, env: map<string, Val>, v: seq<int>)
    requires Eval(child, env) == Some(V(v))
    requires Eval(startQ, env) == Some(I(a)) && Eval(stopQ, env) == Some(I(b))
    ensures b < a ==> Eval(Contiguous(child, startQ, stopQ), env) == None
    ensures 0 <= a <= b <= |v| ==> Eval(Contiguous(child, startQ, stopQ), env) == Some(V(v[a..b]))
  {
    var len := Call("sub", [stopQ, startQ]);
    EvalCall2("sub", stopQ, startQ, env);
    EvalCall1("til", len, env);
    EvalCall2("add", startQ, Call("til", [len]), env);
    EvalContiguous(child, startQ, stopQ, env);
    assert Eval(len, env) == Some(I(b - a));
    if 0 <= a <= b <= |v| {
      IndexRange(v, a, b);
      assert Eval(Call("add", [startQ, Call("til", [len])]), env) == Some(V(seq(b - a, k => a + k)));
    }
  }

  /** A run of indices reaching outside the table selects nothing: q would fill the missing
      rows with nulls, which the evaluator has no value for. */
  lemma ContiguousOutside(child: QExpr, a: int, b: int, startQ: QExpr, stopQ: QExpr, env: map<string, Val>, v: seq<int>)
    requires Eval(child, env) == Some(V(v))
    requires Eval(startQ, env) == Some(I(a)) && Eval(stopQ, env) == Some(I(b))
    requires a < b && (a < 0 || b > |v|)
    ensures Eval(Contiguous(child, startQ, stopQ), env) == None
  {
    var len := Call("sub", [stopQ, startQ]);
    EvalCall2("sub", stopQ, startQ, env);
    EvalCall1("til", len, env);
    EvalCall2("add", startQ, Call("til", [len]), env);
    IndexOutside(v, a, b);
    EvalContiguous(child, startQ, stopQ, env);
    assert Eval(Call("add", [startQ, Call("til", [len])]), env) == Some(V(seq(b - a, k => a + k)));
  }

  /** The range rule as written selects the rows from its start to its stop, each bound
      normalised on its own (a missing start is 0, a missing or zero stop the row count, a
      negative one shifted by the row count): `stop - start` rows. A stop before the start is
      an error (`til` of a negative count), and so is a run reaching outside the table. */
  lemma SliceRangeRows(start: Option<int>, stop: Option<int>, t: string, m: Meta, rows: QExpr,
                       env: map<string, Val>, v: seq<int>)
    requires t in env && env[t] == V(v) && Eval(rows, env) == Some(I(|v|))
    ensures var a, b := StartOf(start, |v|), StopAsWritten(stop, |v|);
            0 <= a <= b <= |v| ==> Eval(SliceRangeAsWritten(start, stop, Symbol(t, m), rows), env) == Some(V(v[a..b]))
    ensures var a, b := StartOf(start, |v|), StopAsWritten(stop, |v|);
            b < a ==> Eval(SliceRangeAsWritten(start, stop, Symbol(t, m), rows), env) == None
    ensures var a, b := StartOf(start, |v|), StopAsWritten(stop, |v|);
            a < b && (a < 0 || b > |v|) ==> Eval(SliceRangeAsWritten(start, stop, Symbol(t, m), rows), env) == None
  {
    var startQ := FromEnd(if start.None? then 0 else start.value, rows);
    var stopQ := if stop.None? || stop.value == 0 then rows else FromEnd(stop.value, rows);
    assert SliceRangeAsWritten(start, stop, Symbol(t, m), rows) == Contiguous(Symbol(t, m), startQ, stopQ);
    var a, b := StartOf(start, |v|), StopAsWritten(stop, |v|);
    AsWrittenBounds(start, stop, rows, env, |v|);
    ContiguousRows(Symbol(t, m), a, b, startQ, stopQ, env, v);
    if a < b && (a < 0 || b > |v|) {
      ContiguousOutside(Symbol(t, m), a, b, startQ, stopQ, env, v);
    }
  }

  /** The bounds the range rule as written computes. */
  lemma AsWrittenBounds(start: Option<int>, stop: Option<int>, rows: QExpr, env: map<string, Val>, n: int)
    requires Eval(rows, env) == Some(I(n))
    ensures Eval(FromEnd(if start.None? then 0 else start.value, rows), env) == Some(I(StartOf(start, n)))
    ensures Eval(if stop.None? || stop.value == 0 then rows else FromEnd(stop.value, rows), env)
         == Some(I(StopAsWritten(stop, n)))
  {
    EvalCall2("add", Num(if start.None? then 0 else start.value), rows, env);
    if stop.Some? {
      EvalCall2("add", Num(stop.value), rows, env);
    }
  }

  /** A bound shifted from the end and clamped into the table is Python's bound. */
  lemma ClampedBound(i: int, rows: QExpr, env: map<string, Val>, n: nat)
    requires Eval(rows, env) == Some(I(n))
    ensures Eval(ClampBound(FromEnd(i, rows), rows), env) == Some(I(PyBound(i, n)))
  {
    EvalCall2("add", Num(i), rows, env);
    EvalCall2("and", rows, FromEnd(i, rows), env);
    EvalCall2("or", Num(0), Call("and", [rows, FromEnd(i, rows)]), env);
  }

  /** A stop shifted from the end and cut to the table's length: below 0 only when Python
      clamps it to 0. */
  lemma ClampedStop(i: int, rows: QExpr, env: map<string, Val>, n: nat)
    requires Eval(rows, env) == Some(I(n))
    ensures var r := Eval(Call("and", [rows, FromEnd(i, rows)]), env);
            r.Some? && r.value.I? && r.value.i <= n
            && (if r.value.i < 0 then PyBound(i, n) == 0 else PyBound(i, n) == r.value.i)
  {
    EvalCall2("add", Num(i), rows, env);
    EvalCall2("and", rows, FromEnd(i, rows), env);
  }

  /** The corrected range rule is Python's slice `v[start:stop]`, for every pair of bounds:
      bounds past either end are clamped, and a stop at or before the start selects no row. */
  lemma SliceRangeIsPythonSlice(start: Option<int>, stop: Option<int>, t: string, m: Meta, rows: QExpr,
                                env: map<string, Val>, v: seq<int>)
    requires t in env && env[t] == V(v) && Eval(rows, env) == Some(I(|v|))
    ensures Eval(SliceRange(start, stop, Symbol(t, m), rows), env) == Some(V(PySlice(v, start, stop)))
  {
    var lo := ClampBound(FromEnd(if start.None? then 0 else start.value, rows), rows);
    var stopQ := if stop.None? then rows else FromEnd(stop.value, rows);
    var hiQ := Call("or", [lo, Call("and", [rows, stopQ])]);
    assert SliceRange(start, stop, Symbol(t, m), rows) == Contiguous(Symbol(t, m), lo, hiQ);
    var a := if start.None? then 0 else PyBound(start.value, |v|);
    var pyHi := if stop.None? then |v| else PyBound(stop.value, |v|);
    CorrectedBounds(start, stop, rows, env, |v|);
    var b := if a >= pyHi then a else pyHi;
    ContiguousRows(Symbol(t, m), a, b, lo, hiQ, env, v);
    assert PySlice(v, start, stop) == v[a..b];
  }

  /** The bounds the corrected range rule computes: Python's start, and Python's stop moved
      up to the start. */
  lemma CorrectedBounds(start: Option<int>, stop: Option<int>, rows: QExpr, env: map<string, Val>, n: nat)
    requires Eval(rows, env) == Some(I(n))
    ensures var lo := ClampBound(FromEnd(if start.None? then 0 else start.value, rows), rows);
            var a := if start.None? then 0 else PyBound(start.value, n);
            var pyHi := if stop.None? then n else PyBound(stop.value, n);
            var stopQ := if stop.None? then rows else FromEnd(stop.value, rows);
            Eval(lo, env) == Some(I(a))
            && Eval(Call("or", [lo, Call("and", [rows, stopQ])]), env) == Some(I(if a >= pyHi then a else pyHi))
  {
    var lo := ClampBound(FromEnd(if start.None? then 0 else start.value, rows), rows);
    var stopQ := if stop.None? then rows else FromEnd(stop.value, rows);
    ClampedBound(if start.None? then 0 else start.value, rows, env, n);
    if stop.Some? {
      ClampedStop(stop.value, rows, env, n);
    } else {
      EvalCall2("and", rows, stopQ, env);
    }
    EvalCall2("or", lo, Call("and", [rows, stopQ]), env);
  }

  /** The range rule as written reads a stop of 0 as "no stop": `v[:0]`, which is empty in
      Python, selects every row of a non-empty table. */
  lemma SliceStopZeroAsWritten(t: string, m: Meta, rows: QExpr, env: map<string, Val>, v: seq<int>)
    requires t in env && env[t] == V(v) && Eval(rows, env) == Some(I(|v|)) && |v| > 0
    ensures PySlice(v, None, Some(0)) == []
    ensures Eval(SliceRangeAsWritten(None, Some(0), Symbol(t, m), rows), env) == Some(V(v))
    ensures Eval(SliceRange(None, Some(0), Symbol(t, m), rows), env) == Some(V([]))
  {
    SliceRangeRows(None, Some(0), t, m, rows, env, v);
    assert v[0..|v|] == v;
    SliceRangeIsPythonSlice(None, Some(0), t, m, rows, env, v);
  }

  /** The range rule as written fails on a stop before the start and on a stop past the
      end, where Python yields no rows and all rows: on a five-row table `t[3:1]` asks `til`
      for -2 elements and `t[:100]` for rows 5 to 99. The corrected rule yields Python's
      slices. */
  lemma SliceOutOfOrderAsWritten(t: string, m: Meta, rows: QExpr, env: map<string, Val>, v: seq<int>)
    requires t in env && env[t] == V(v) && Eval(rows, env) == Some(I(|v|)) && |v| == 5
    ensures PySlice(v, Some(3), Some(1)) == [] && PySlice(v, None, Some(100)) == v
    ensures Eval(SliceRangeAsWritten(Some(3), Some(1), Symbol(t, m), rows), env) == None
    ensures Eval(SliceRangeAsWritten(None, Some(100), Symbol(t, m), rows), env) == None
    ensures Eval(SliceRange(Some(3), Some(1), Symbol(t, m), rows), env) == Some(V([]))
    ensures Eval(SliceRange(None, Some(100), Symbol(t, m), rows), env) == Some(V(v))
  {
    SliceRangeRows(Some(3), Some(1), t, m, rows, env, v);
    SliceRangeRows(None, Some(100), t, m, rows, env, v);
    SliceRangeIsPythonSlice(Some(3), Some(1), t, m, rows, env, v);
    SliceRangeIsPythonSlice(None, Some(100), t, m, rows, env, v);
    assert v[0..5] == v;
  }

  // ---------------------------------------------------------------------------------------
  // Time fields.

  /** Minute is the raw minute count modulo 60, in 0..59, whatever type carried it:
      a raw minute of 65 gives 5. */
  lemma MinuteWraps(x: string, m: Meta, raw: int, env: map<string, Val>)
    requires x + "." + "minute" in env && env[x + "." + "minute"] == I(raw)
    ensures MinuteUp(Symbol(x, m)).Ok?
    ensures var r := Eval(MinuteUp(Symbol(x, m)).value, env);
            r == Some(I(raw % 60)) && 0 <= r.value.i < 60
    ensures raw == 65 ==> Eval(MinuteUp(Symbol(x, m)).value, env) == Some(I(5))
  {
    var sym := Symbol(x + "." + "minute", Plain);
    EvalCall1("long", sym, env);
    EvalCall2("mod", Call("long", [sym]), Num(60), env);
  }

  /** Microsecond is the nanosecond count within its second, divided down to microseconds:
      a value in 0..999999. */
  lemma MicrosecondInSecond(x: string, m: Meta, nanos: int, env: map<string, Val>)
    requires x in env && env[x] == I(nanos)
    ensures var r := Eval(MicrosecondUp(Symbol(x, m)), env);
            r == Some(I((nanos % NanosPerSecond) / NanosPerMicro)) && 0 <= r.value.i < 1000000
  {
    var d := Symbol(x, m);
    EvalCall1("long", d, env);
    EvalCall2("mod", Call("long", [d]), Num(NanosPerSecond), env);
    EvalCall2("div", Call("mod", [Call("long", [d]), Num(NanosPerSecond)]), Num(NanosPerMicro), env);
    EvalCall1("floor", Call("div", [Call("mod", [Call("long", [d]), Num(NanosPerSecond)]), Num(NanosPerMicro)]), env);
  }
}

=== FILE: rules.dfy ===
/** The rule table of kdbpy/compute/core.py: one function per `compute_up` rule, the
    `compute_down` rule for `nelements` and the two `compute_slice` rules. Each takes the
    expression node's own parameters and its already translated operand(s), and builds a
    fresh q fragment. */
module Rules {
  import opened QAst
  import opened Scope
  import opened Literals

  /** `qdatetimes`: datetime fields whose q name differs; any other field keeps its name. */
  const QDateTimes: map<string, string> :=
    map["day" := "dd", "month" := "mm", "hour" := "hh", "second" := "ss"]

  function QDateTimeName(attr: string): string {
    if attr in QDateTimes then QDateTimes[attr] else attr
  }

  /** `data[name]`. Only a table symbol has members, reached as the dotted symbol
      `table.name`; indexing anything else by a name is a type error. Whether `data` is a
      symbol is the explicit record / non-record tag the field rule branches on. */
  function Member(data: QExpr, name: string): (r: Option<QExpr>)
    ensures r.Some? <==> data.Symbol?
    ensures r.Some? ==> r.value == Symbol(data.s + "." + name, Plain)
  {
    if data.Symbol? then Some(Symbol(data.s + "." + name, Plain)) else None
  }

  /** Projection: a select keeping the named fields, each mapped to itself, in order. */
  function ProjectionUp(fields: seq<string>, data: QExpr): (r: QExpr)
    ensures r.Select? && r.child == data && r.constraints == NoConstraints
    ensures r.grouper == NoGrouper && r.aggregates.Dict?
    ensures |r.aggregates.entries| == |fields|
    ensures forall i :: 0 <= i < |fields| ==>
              r.aggregates.entries[i].0 == r.aggregates.entries[i].1 == Symbol(fields[i], Plain)
  {
    var syms := seq(|fields|, i requires 0 <= i < |fields| => Symbol(fields[i], Plain));
    Select(data, NoConstraints, NoGrouper,
           Dict(seq(|fields|, i requires 0 <= i < |fields| => (syms[i], syms[i]))))
  }

  /** Binary operation on two translated operands: the operator's q form applied to them in
      their source order. An operator missing from `binops` is a lookup failure. */
  function BinOpUp(binops: map<string, string>, op: string, lhs: QExpr, rhs: QExpr): (r: Result<QExpr>)
    ensures r.Err? <==> op !in binops
    ensures r.Err? ==> r.error == UnknownOperator(op)
    ensures r.Ok? ==> r.value.List? && r.value.items == [Atom(binops[op]), lhs, rhs]
  {
    if op in binops then Ok(Call(binops[op], [lhs, rhs])) else Err(UnknownOperator(op))
  }

  /** Binary operation with one literal side: the literal is coerced by `qify` and stays on
      the side where it appeared. `exprOnLeft` tells whether the left operand is the
      expression (whose translation is `data`). */
  function BinOpLiteralUp(binops: map<string, string>, op: string, data: QExpr, lit: Literal,
                          exprOnLeft: bool, parse: string -> Option<Timestamp>): (r: Result<QExpr>)
    ensures op !in binops ==> r == Err(UnknownOperator(op))
    ensures op in binops ==> (r.Ok? <==> Qify(lit, parse).Ok?)
    ensures op in binops && Qify(lit, parse).Err? ==> r == Err(Qify(lit, parse).error)
    ensures r.Ok? && exprOnLeft ==> r.value == Call(binops[op], [data, Qify(lit, parse).value])
    ensures r.Ok? && !exprOnLeft ==> r.value == Call(binops[op], [Qify(lit, parse).value, data])
  {
    if op !in binops then Err(UnknownOperator(op))
    else
      var x :- Qify(lit, parse);
      if exprOnLeft then Ok(Call(binops[op], [data, x]))
      else Ok(Call(binops[op], [x, data]))
  }

  /** Reduction: only along the first axis, `(0,)`. */
  function ReductionUp(unops: map<string, string>, op: string, axis: seq<int>, data: QExpr): (r: Result<QExpr>)
    ensures axis != [0] ==> r == Err(AxisNotSupported)
    ensures axis == [0] && op !in unops ==> r == Err(UnknownOperator(op))
    ensures r.Ok? <==> axis == [0] && op in unops
    ensures r.Ok? ==> r.value == Call(unops[op], [data])
  {
    if axis != [0] then Err(AxisNotSupported)
    else UnaryUp(unops, op, data)
  }

  /** Unary operation: the operator's q form applied to the operand. */
  function UnaryUp(unops: map<string, string>, op: string, data: QExpr): (r: Result<QExpr>)
    ensures r.Err? <==> op !in unops
    ensures r.Err? ==> r.error == UnknownOperator(op)
    ensures r.Ok? ==> r.value == Call(unops[op], [data])
  {
    if op in unops then Ok(Call(unops[op], [data])) else Err(UnknownOperator(op))
  }

  /** Field access: a member of a table symbol, otherwise an explicit slice by name. */
  function FieldUp(name: string, data: QExpr): (r: QExpr)
    ensures data.Symbol? ==> r == Symbol(data.s + "." + name, Plain)
    ensures !data.Symbol? ==> r == Call("slice", [data, Symbol(name, Plain)])
  {
    match Member(data, name)
    case Some(m) => m
    case None => Call("slice", [data, Symbol(name, Plain)])
  }

  /** Selection: a select over the data with one disjunct holding the one predicate `cond`. */
  function SelectionUp(data: QExpr, cond: QExpr): (r: QExpr)
    ensures r.Select? && r.child == data && r.grouper == NoGrouper && r.aggregates == AllColumns
    ensures r.constraints == List([List([cond])])
  {
    Select(data, List([List([cond])]), NoGrouper, AllColumns)
  }

  /** Datetime field accessor: the member under the field's q name. */
  function DateTimeUp(attr: string, data: QExpr): (r: Result<QExpr>)
    ensures r.Ok? <==> data.Symbol?
    ensures r.Err? ==> r.error == NotIndexable
    ensures r.Ok? ==> r.value == Symbol(data.s + "." + QDateTimeName(attr), Plain)
  {
    match Member(data, QDateTimeName(attr))
    case Some(m) => Ok(m)
    case None => Err(NotIndexable)
  }

  /** Nanoseconds in a second, and in a microsecond. */
  const NanosPerSecond := 1000000000
  const NanosPerMicro := 1000

  /** Microsecond: the raw value as a long, modulo one second of nanoseconds, divided down
      to microseconds, floored. */
  function MicrosecondUp(data: QExpr): QExpr {
    Call("floor", [Call("div", [Call("mod", [Call("long", [data]), Num(NanosPerSecond)]), Num(NanosPerMicro)])])
  }

  /** Millisecond: the translation of `microsecond // 1000`, i.e. the binary-operation rule
      for `//` applied to the microsecond translation `micro` and the literal 1000. */
  function MillisecondUp(binops: map<string, string>, micro: QExpr): (r: Result<QExpr>)
    ensures r.Err? <==> "//" !in binops
    ensures r.Ok? ==> r.value == Call(binops["//"], [micro, Num(1000)])
  {
    if "//" in binops then Ok(Call(binops["//"], [micro, Num(1000)])) else Err(UnknownOperator("//"))
  }

  /** Minute: the raw `minute` member as a long, modulo 60 (q's own minute accessor is
      bypassed). */
  function MinuteUp(data: QExpr): (r: Result<QExpr>)
    ensures r.Ok? <==> data.Symbol?
    ensures r.Ok? ==> r.value == Call("mod", [Call("long", [Symbol(data.s + "." + "minute", Plain)]), Num(60)])
  {
    match Member(data, "minute")
    case Some(m) => Ok(Call("mod", [Call("long", [m]), Num(60)]))
    case None => Err(NotIndexable)
  }

  /** Join: only an inner join on same-named columns, as `ej[keys; lhs; rhs]`. */
  function JoinUp(how: string, onLeft: seq<string>, onRight: seq<string>, lhs: QExpr, rhs: QExpr): (r: Result<QExpr>)
    ensures how != "inner" ==> r == Err(JoinNotInner)
    ensures how == "inner" && onLeft != onRight ==> r == Err(JoinKeysDiffer)
    ensures r.Ok? <==> how == "inner" && onLeft == onRight
    ensures r.Ok? ==> r.value == List([Str("ej"), SymList(onLeft), lhs, rhs])
  {
    if how != "inner" then Err(JoinNotInner)
    else if onLeft != onRight then Err(JoinKeysDiffer)
    else Ok(List([Str("ej"), SymList(onLeft), lhs, rhs]))
  }

  /** Sort: the sort builder over the data, the key and the direction, in that order. */
  function SortUp(data: QExpr, key: string, ascending: bool): (r: QExpr)
    ensures r.List? && |r.items| == 4 && r.items[0] == Atom("sort")
    ensures r.items[1..] == [data, Str(key), Bool(ascending)]
  {
    Call("sort", [data, Str(key), Bool(ascending)])
  }

  /** `zip(map(q.Symbol, names), ops)`: pairs up to the shorter of the two. */
  function Zip(names: seq<string>, ops: seq<QExpr>): (r: seq<(QExpr, QExpr)>)
    ensures |r| == if |names| < |ops| then |names| else |ops|
    ensures forall i :: 0 <= i < |r| ==> r[i] == (Symbol(names[i], Plain), ops[i])
  {
    if names == [] || ops == [] then [] else [(Symbol(names[0], Plain), ops[0])] + Zip(names[1..], ops[1..])
  }

  /** Summary: each sub-aggregate (already translated against the same data) under its name,
      in one select, with the leaf table's scope stripped. */
  function SummaryUp(names: seq<string>, ops: seq<QExpr>, data: QExpr, leaf: string): (r: QExpr)
    ensures r.Select? && r.child == Child(data, leaf)
  {
    Desubs(Select(data, NoConstraints, NoGrouper, Dict(Zip(names, ops))), leaf)
  }

  /** The operand of a group-by: a select is opened up to its child and its constraints,
      anything else is its own child with no constraints. */
  function ByParts(data: QExpr): (r: (QExpr, QExpr))
    ensures data.Select? ==> r == (data.child, data.constraints)
    ensures !data.Select? ==> r == (data, NoConstraints)
  {
    if data.Select? then (data.child, data.constraints) else (data, NoConstraints)
  }

  /** Group-by: one select over `child` with the previous constraints, a one-entry grouper
      and the aggregates of the translated apply, with the child's scope stripped. */
  function ByUp(child: QExpr, constraints: QExpr, name: string, grouper: QExpr, apply: QExpr): (r: Result<QExpr>)
    ensures r.Ok? <==> apply.Select? && (child.Atom? || child.Symbol?)
    ensures !apply.Select? ==> r == Err(NoAggregates)
    ensures r.Ok? ==> r.value == Select(child, List([Desubs(constraints, child.s)]),
                                        Dict([(ComputeAtom(Symbol(name, Plain), child.s), Desubs(grouper, child.s))]),
                                        Child(apply.aggregates, child.s))
  {
    if !apply.Select? then Err(NoAggregates)
    else if !(child.Atom? || child.Symbol?) then Err(NoName)
    else
      assert !ScopedBy(child.s, child.s) && Child(child, child.s) == child;
      OneItemStripped(constraints, child.s);
      GrouperStripped(name, grouper, child.s);
      Ok(Desubs(Select(child, List([constraints]), Dict([(Symbol(name, Plain), grouper)]), apply.aggregates),
                child.s))
  }

  /** Stripping a scope from a one-item list strips it from the item. */
  lemma OneItemStripped(x: QExpr, t: string)
    ensures Child(List([x]), t) == List([Desubs(x, t)])
  {
    assert DesubsAll([x], t) == [Desubs(x, t)];
  }

  /** Element count (`compute_down(nelements, ...)`): only along the first axis; a table
      symbol with fields is counted through a fresh plain symbol of the same name. (Only a
      table symbol carries fields, so the exclusion of selects holds by construction.) */
  function NElementsUp(axis: seq<int>, data: QExpr): (r: Result<QExpr>)
    ensures axis != [0] ==> r == Err(AxisNotSupported)
    ensures r.Ok? <==> axis == [0]
    ensures r.Ok? && data.Symbol? && data.meta.fields != [] ==> r.value == Call("count", [Symbol(data.s, Plain)])
    ensures r.Ok? && !(data.Symbol? && data.meta.fields != []) ==> r.value == Call("count", [data])
  {
    if axis != [0] then Err(AxisNotSupported)
    else if data.Symbol? && data.meta.fields != [] then Ok(Call("count", [Symbol(data.s, Plain)]))
    else Ok(Call("count", [data]))
  }

  /** `q.and_(n, rows)`: the requested count clamped by the row count (`&` is min). */
  function Clamp(n: int, rows: QExpr): QExpr {
    Call("and", [Num(n), rows])
  }

  /** Head: take the clamped count of rows, through `partake` for a partitioned table. */
  function HeadUp(n: int, data: QExpr, rows: QExpr): (r: QExpr)
    ensures data.Symbol? && data.meta.partitioned ==>
              r == Call("partake", [data, Call("til", [Clamp(n, rows)])])
    ensures !(data.Symbol? && data.meta.partitioned) ==> r == Call("take", [Clamp(n, rows), data])
  {
    if data.Symbol? && data.meta.partitioned then Call("partake", [data, Call("til", [Clamp(n, rows)])])
    else Call("take", [Clamp(n, rows), data])
  }

  /** One slice dimension: a single index or a range with optional bounds. */
  datatype SliceIndex = At(i: int) | Range(start: Option<int>, stop: Option<int>)

  /** A negative index counted from the end: shifted by the row count. */
  function FromEnd(i: int, rows: QExpr): QExpr {
    if i < 0 then Call("add", [Num(i), rows]) else Num(i)
  }

  /** `compute_slice` for an integer index: the data applied to the (shifted) index, enlisted
      when the result is a record. */
  function SliceAt(index: int, child: QExpr, rows: QExpr, record: bool): (r: QExpr)
    ensures record ==> r == List([Str(",:"), List([child, FromEnd(index, rows)])])
    ensures !record ==> r == List([child, FromEnd(index, rows)])
  {
    var q := List([child, FromEnd(index, rows)]);
    if record then List([Str(",:"), q]) else q
  }

  /** `start + til(stop - start)` applied to the child. */
  function Contiguous(child: QExpr, start: QExpr, stop: QExpr): QExpr {
    List([Str("@"), child, Call("add", [start, Call("til", [Call("sub", [stop, start])])])])
  }

  /** `compute_slice` for a range, as written: `index.start or 0` and `index.stop or nrows`
      take a zero bound for a missing one, so a stop of 0 becomes the row count. */
  function SliceRangeAsWritten(start: Option<int>, stop: Option<int>, child: QExpr, rows: QExpr): QExpr {
    var s := if start.None? then 0 else start.value;
    var startQ := FromEnd(s, rows);
    var stopQ := if stop.None? || stop.value == 0 then rows else FromEnd(stop.value, rows);
    Contiguous(child, startQ, stopQ)
  }

  /** A slice bound clamped into the table, `0 | rows & bound`: `|` is max and `&` min. */
  function ClampBound(bound: QExpr, rows: QExpr): QExpr {
    Call("or", [Num(0), Call("and", [rows, bound])])
  }

  /** `compute_slice` for a range, as Python slices: only a missing stop stands for the row
      count, both bounds are clamped into the table, and a stop before the start is moved up
      to the start, so that the count handed to `til` is never negative. */
  function SliceRange(start: Option<int>, stop: Option<int>, child: QExpr, rows: QExpr): QExpr {
    var s := if start.None? then 0 else start.value;
    var lo := ClampBound(FromEnd(s, rows), rows);
    var stopQ := if stop.None? then rows else FromEnd(stop.value, rows);
    Contiguous(child, lo, Call("or", [lo, Call("and", [rows, stopQ])]))
  }

  /** Slice: exactly one dimension. */
  function SliceUp(index: seq<SliceIndex>, data: QExpr, rows: QExpr, record: bool): (r: Result<QExpr>)
    ensures r.Err? <==> |index| != 1
    ensures r.Err? ==> r.error == NotSingleSlice
    ensures |index| == 1 && index[0].At? ==> r == Ok(SliceAt(index[0].i, data, rows, record))
    ensures |index| == 1 && index[0].Range? ==> r == Ok(SliceRange(index[0].start, index[0].stop, data, rows))
  {
    if |index| != 1 then Err(NotSingleSlice)
    else
      match index[0]
      case At(i) => Ok(SliceAt(i, data, rows, record))
      case Range(a, b) => Ok(SliceRange(a, b, data, rows))
  }

  /** Distinct: the deduplication builder, nothing more. */
  function DistinctUp(data: QExpr): (r: QExpr)
    ensures r.List? && |r.items| == 2 && r.items[0] == Atom("distinct") && r.items[1..] == [data]
  {
    Call("distinct", [data])
  }

  // ---------------------------------------------------------------------------------------
  // Properties relating the rules to each other and to the scope rewrite.

  /** A field of table `t` is the symbol `t.name`, and stripping the scope `t` from it gives
      back the bare column `name`. */
  lemma FieldThenDesubs(name: string, t: string, m: Meta)
    requires '.' !in t
    ensures Desubs(FieldUp(name, Symbol(t, m)), t) == Symbol(name, Plain)
  {
    var s := t + "." + name;
    assert s[..|t|] == t && s[|t|] == '.';
    assert s[|t| + 1..] == name;
  }

  /** Operands keep their source order: swapping two different operands changes the result. */
  lemma BinOpKeepsOrder(binops: map<string, string>, op: string, a: QExpr, b: QExpr)
    requires op in binops && a != b
    ensures BinOpUp(binops, op, a, b) != BinOpUp(binops, op, b, a)
  {
    assert BinOpUp(binops, op, a, b).value.items[1] == a;
  }

  /** The docstring example `s.name == 'Alice'` is `(=; `s.name; (,:[`Alice]))`, and a literal
      on the left, as in `1 < s.amount`, stays on the left. */
  lemma BinOpLiteralExamples(binops: map<string, string>, parse: string -> Option<Timestamp>)
    requires "==" in binops && binops["=="] == "=" && "<" in binops && binops["<"] == "<"
    requires parse("Alice") == None
    ensures BinOpLiteralUp(binops, "==", Symbol("s.name", Plain), Text("Alice"), true, parse)
         == Ok(List([Atom("="), Symbol("s.name", Plain), List([Symbol("Alice", Plain)])]))
    ensures BinOpLiteralUp(binops, "<", Symbol("s.amount", Plain), Int(1), false, parse)
         == Ok(List([Atom("<"), Num(1), Symbol("s.amount", Plain)]))
  {
    assert Qify(Text("Alice"), parse) == Ok(List([Symbol("Alice", Plain)]));
    assert [Atom("=")] + [Symbol("s.name", Plain), List([Symbol("Alice", Plain)])]
        == [Atom("="), Symbol("s.name", Plain), List([Symbol("Alice", Plain)])];
    assert [Atom("<")] + [Num(1), Symbol("s.amount", Plain)] == [Atom("<"), Num(1), Symbol("s.amount", Plain)];
  }

  /** Millisecond is the binary-operation rule for `//` with the literal 1000 on the right. */
  lemma MillisecondIsFloorDiv(binops: map<string, string>, micro: QExpr, parse: string -> Option<Timestamp>)
    ensures MillisecondUp(binops, micro) == BinOpLiteralUp(binops, "//", micro, Int(1000), true, parse)
  {
  }

  /** Datetime fields go through the rename table: `day` is `dd`; others keep their name. */
  lemma DateTimeExamples(m: Meta)
    ensures DateTimeUp("day", Symbol("t.ts", m)) == Ok(Symbol("t.ts.dd", Plain))
    ensures DateTimeUp("second", Symbol("t.ts", m)) == Ok(Symbol("t.ts.ss", Plain))
    ensures DateTimeUp("year", Symbol("t.ts", m)) == Ok(Symbol("t.ts.year", Plain))
    ensures DateTimeUp("day", List([])) == Err(NotIndexable)
  {
    assert QDateTimeName("day") == "dd" && QDateTimeName("second") == "ss";
    assert QDateTimeName("year") == "year";
    assert "t.ts" + "." + "dd" == "t.ts.dd";
    assert "t.ts" + "." + "ss" == "t.ts.ss";
    assert "t.ts" + "." + "year" == "t.ts.year";
  }

  /** A group-by over a filtered table yields ONE select: its child is the table itself (not
      a nested select), its constraints are the filter's clause in the same shape the filter
      built it (the extra list the rule wraps around them is undone by `get`), and its grouper
      and aggregates are filled in, all with the table's scope stripped. */
  lemma ByMergesSelection(t: string, m: Meta, cond: QExpr, name: string, grouper: QExpr, apply: QExpr)
    requires '.' !in t && apply.Select?
    ensures var parts := ByParts(SelectionUp(Symbol(t, m), cond));
            ByUp(parts.0, parts.1, name, grouper, apply)
            == Ok(Select(Symbol(t, m), List([List([Desubs(cond, t)])]),
                         Dict([(ComputeAtom(Symbol(name, Plain), t), Desubs(grouper, t))]),
                         Child(apply.aggregates, t)))
  {
    var k := List([List([cond])]);
    assert Desubs(k, t) == List([Desubs(cond, t)]) by {
      assert Children(k.items, t) == [Child(List([cond]), t)];
      OneItemStripped(cond, t);
    }
  }

  /** A group-by over a plain table yields one select over the table with an empty
      constraint clause, the grouper under its own name, and the apply's aggregates, all
      with the table's scope stripped. */
  lemma ByOverTable(t: string, m: Meta, name: string, grouper: QExpr, apply: QExpr)
    requires '.' !in t && apply.Select?
    ensures var parts := ByParts(Symbol(t, m));
            ByUp(parts.0, parts.1, name, grouper, apply)
            == Ok(Select(Symbol(t, m), List([NoConstraints]),
                         Dict([(ComputeAtom(Symbol(name, Plain), t), Desubs(grouper, t))]),
                         Child(apply.aggregates, t)))
  {
    assert Desubs(NoConstraints, t) == NoConstraints;
  }

  /** Stripping a scope from a one-entry grouper strips it from the name and the column. */
  lemma GrouperStripped(name: string, grouper: QExpr, t: string)
    ensures Child(Dict([(Symbol(name, Plain), grouper)]), t)
         == Dict([(ComputeAtom(Symbol(name, Plain), t), Desubs(grouper, t))])
  {
    var g := Dict([(Symbol(name, Plain), grouper)]);
    EntriesAt(g.entries, t, 0);
    assert Desubs(Symbol(name, Plain), t) == ComputeAtom(Symbol(name, Plain), t);
  }

  /** Summary: one select over the data whose aggregates pair each name with its
      sub-aggregate, in order, up to the shorter list, with the leaf table's scope stripped
      from names and expressions. */
  lemma SummaryShape(names: seq<string>, ops: seq<QExpr>, data: QExpr, leaf: string)
    ensures var r := SummaryUp(names, ops, data, leaf);
            && r.Select? && r.child == Child(data, leaf) && r.constraints == NoConstraints
            && r.grouper == NoGrouper && r.aggregates.Dict?
            && |r.aggregates.entries| == (if |names| < |ops| then |names| else |ops|)
            && forall i :: 0 <= i < |r.aggregates.entries| ==>
                 r.aggregates.entries[i] == (ComputeAtom(Symbol(names[i], Plain), leaf), Desubs(ops[i], leaf))
  {
    var es := Zip(names, ops);
    var sel := Select(data, NoConstraints, NoGrouper, Dict(es));
    assert SummaryUp(names, ops, data, leaf) == Desubs(sel, leaf);
    assert Desubs(sel, leaf) == Select(Child(data, leaf), Child(NoConstraints, leaf), Child(NoGrouper, leaf), Child(Dict(es), leaf));
    assert Child(NoConstraints, leaf) == List(DesubsAll([], leaf)) == NoConstraints;
    assert Child(Dict(es), leaf) == Dict(Entries(es, leaf));
    forall i | 0 <= i < |es| {
      EntriesAt(es, leaf, i);
    }
  }

  /** No aggregate of a summary still names the leaf table, unless its expression named the
      leaf table twice over. */
  lemma SummaryStripsScope(names: seq<string>, ops: seq<QExpr>, data: QExpr, leaf: string)
    ensures var r := SummaryUp(names, ops, data, leaf);
            r.Select? && r.aggregates.Dict?
            && forall i, n :: 0 <= i < |r.aggregates.entries| && i < |ops| && n in Names(r.aggregates.entries[i].1)
                 && (forall n' :: n' in Visible(ops[i], true) ==> !DoublyScoped(n', leaf))
                 ==> !ScopedBy(n, leaf)
  {
    SummaryShape(names, ops, data, leaf);
    forall i | 0 <= i < |names| && 0 <= i < |ops| {
      DesubsRemovesScope(ops[i], leaf);
    }
  }
}

=== FILE: scope.dfy ===
/** Scope stripping: `get`, `compute_atom`, `desubs` and `_desubs` of kdbpy/compute/core.py.
    A q fragment translated under a table `t` names its columns `t.col`; once the fragment is
    embedded where `t` is implicit, the leading `t.` is removed from every atom and symbol. */
module Scope {
  import opened QAst

  /** `s` is a name inside scope `t`: the part of `s` before its first '.' is exactly `t`. */
  predicate ScopedBy(s: string, t: string) {
    |t| < |s| && s[..|t|] == t && s[|t|] == '.' && '.' !in t
  }

  /** The name `s` with the scope `t` removed, when `s` is scoped by `t`. */
  function Strip(s: string, t: string): string {
    if ScopedBy(s, t) then s[|t| + 1..] else s
  }

  /** Position of the first '.' in `s`: the split point of `s.split('.', 1)`. */
  function FirstDot(s: string): (r: Option<nat>)
    ensures r.Some? ==> r.value < |s| && s[r.value] == '.' && '.' !in s[..r.value]
    ensures r.None? <==> '.' !in s
  {
    if |s| == 0 then None
    else if s[0] == '.' then Some(0)
    else
      match FirstDot(s[1..])
      case None => None
      case Some(i) =>
        assert s[..i + 1] == [s[0]] + s[1..][..i];
        Some(i + 1)
  }

  /** An atom or symbol of the same kind as `a`, named `name`; a rebuilt symbol is plain. */
  function Renamed(a: QExpr, name: string): QExpr
    requires a.Atom? || a.Symbol?
  {
    if a.Atom? then Atom(name) else Symbol(name, Plain)
  }

  /** `compute_atom(atom, symbol)`: split the name on its first '.', and rebuild the atom from
      the rest when the part before the dot is the table name. */
  function ComputeAtom(a: QExpr, t: string): (r: QExpr)
    requires a.Atom? || a.Symbol?
    ensures r.Atom? == a.Atom? && r.Symbol? == a.Symbol?
    ensures ScopedBy(a.s, t) ==> r == Renamed(a, a.s[|t| + 1..])
    ensures !ScopedBy(a.s, t) ==> r == a
    ensures r.s == Strip(a.s, t)
  {
    match FirstDot(a.s)
    case None => a
    case Some(i) =>
      if a.s[..i] == t then
        assert |t| == i && ScopedBy(a.s, t);
        Renamed(a, a.s[i + 1..])
      else
        a
  }

  /** `get(x)`: the sole element of a one-element list, any other list unchanged. */
  function Get(xs: seq<QExpr>): (r: QExpr)
    ensures |xs| == 1 ==> r == xs[0]
    ensures |xs| != 1 ==> r == List(xs)
  {
    if |xs| == 1 then xs[0] else List(xs)
  }

  /** `desubs(expr, t)`. A select is rebuilt from its walked children with the leading `?`
      marker dropped; anything else is the walked children gathered into a q list by `get`.
      A dictionary is walked as a Python dictionary is iterated, over its keys alone, so
      what comes back is a list of its rewritten keys (or the one key) and its values are
      gone. */
  function Desubs(e: QExpr, t: string): (r: QExpr)
    decreases e
    ensures (e.Str? || e.Num? || e.Bool?) ==> r == e
    ensures (e.Atom? || e.Symbol?) ==> r.Atom? == e.Atom? && r.Symbol? == e.Symbol? && r.s == Strip(e.s, t)
    ensures e.Select? ==> r.Select?
    ensures !e.Select? ==> !r.Dict?  || (e.List? && |e.items| == 1) || (e.Dict? && |e.entries| == 1)
  {
    match e
    case Atom(_) => ComputeAtom(e, t)
    case Symbol(_, _) => ComputeAtom(e, t)
    case Str(_) => e
    case Num(_) => e
    case Bool(_) => e
    case List(xs) => Get(Children(xs, t))
    case Dict(es) => Get(KeyChildren(es, t))
    case Select(c, k, g, a) => Select(Child(c, t), Child(k, t), Child(g, t), Child(a, t))
  }

  /** The loop body of `_desubs`: how one child of a walked fragment is rewritten. A nested
      list is rebuilt from `desubs` of its items (so a one-element item collapses to that
      item); a nested select is a q list whose first item is the `?` marker. */
  function Child(x: QExpr, t: string): (r: QExpr)
    decreases x
    ensures (x.Str? || x.Num? || x.Bool?) ==> r == x
    ensures (x.Atom? || x.Symbol?) ==> r.Atom? == x.Atom? && r.Symbol? == x.Symbol? && r.s == Strip(x.s, t)
    ensures x.List? ==> r.List? && |r.items| == |x.items|
    ensures x.Dict? ==> r.Dict? && |r.entries| == |x.entries|
    ensures x.Select? ==> r.List? && |r.items| == 5 && r.items[0] == Atom(SelectMarker)
  {
    match x
    case Atom(_) => ComputeAtom(x, t)
    case Symbol(_, _) => ComputeAtom(x, t)
    case List(ys) => List(DesubsAll(ys, t))
    case Dict(es) => Dict(Entries(es, t))
    case Select(c, k, g, a) =>
      List([Atom(SelectMarker), Desubs(c, t), Desubs(k, t), Desubs(g, t), Desubs(a, t)])
    case _ => x
  }

  /** `Child` of every item, in order. */
  function Children(xs: seq<QExpr>, t: string): (r: seq<QExpr>)
    decreases xs
    ensures |r| == |xs| && forall i :: 0 <= i < |xs| ==> r[i] == Child(xs[i], t)
  {
    if xs == [] then [] else [Child(xs[0], t)] + Children(xs[1..], t)
  }

  /** `Child` of every key of a dictionary, in order: what walking a dictionary yields. */
  function KeyChildren(es: seq<(QExpr, QExpr)>, t: string): (r: seq<QExpr>)
    decreases es
    ensures |r| == |es|
  {
    if es == [] then []
    else
      assert es[0].0 < es[0];
      [Child(es[0].0, t)] + KeyChildren(es[1..], t)
  }

  /** Each key is rewritten in place, order kept. */
  lemma {:induction false} KeyChildrenAt(es: seq<(QExpr, QExpr)>, t: string, i: nat)
    requires i < |es|
    ensures KeyChildren(es, t)[i] == Child(es[i].0, t)
  {
    if i > 0 {
      KeyChildrenAt(es[1..], t, i - 1);
    }
  }

  /** `desubs` of every item, in order. */
  function DesubsAll(xs: seq<QExpr>, t: string): (r: seq<QExpr>)
    decreases xs
    ensures |r| == |xs| && forall i :: 0 <= i < |xs| ==> r[i] == Desubs(xs[i], t)
  {
    if xs == [] then [] else [Desubs(xs[0], t)] + DesubsAll(xs[1..], t)
  }

  /** `desubs` of every key and every value, keeping each key with its value, in order. */
  function Entries(es: seq<(QExpr, QExpr)>, t: string): (r: seq<(QExpr, QExpr)>)
    decreases es
    ensures |r| == |es|
  {
    if es == [] then []
    else
      assert es[0].0 < es[0] && es[0].1 < es[0];
      [(Desubs(es[0].0, t), Desubs(es[0].1, t))] + Entries(es[1..], t)
  }

  /** Each entry is rewritten in place: key with its own value, order kept. */
  lemma {:induction false} EntriesAt(es: seq<(QExpr, QExpr)>, t: string, i: nat)
    requires i < |es|
    ensures Entries(es, t)[i] == (Desubs(es[i].0, t), Desubs(es[i].1, t))
  {
    if i > 0 {
      EntriesAt(es[1..], t, i - 1);
    }
  }

  // ---------------------------------------------------------------------------------------
  // The names a fragment mentions, and what the rewrite does to them.

  /** Every atom and symbol name of a fragment, left to right (a select starts with `?`). */
  function Names(e: QExpr): seq<string>
    decreases e
  {
    match e
    case Atom(s) => [s]
    case Symbol(s, _) => [s]
    case List(xs) => NamesOf(xs)
    case Dict(es) => EntryNames(es)
    case Select(c, k, g, a) => [SelectMarker] + Names(c) + Names(k) + Names(g) + Names(a)
    case _ => []
  }

  function NamesOf(xs: seq<QExpr>): seq<string>
    decreases xs
  {
    if xs == [] then [] else Names(xs[0]) + NamesOf(xs[1..])
  }

  function EntryNames(es: seq<(QExpr, QExpr)>): seq<string>
    decreases es
  {
    if es == [] then []
    else
      assert es[0].0 < es[0] && es[0].1 < es[0];
      Names(es[0].0) + Names(es[0].1) + EntryNames(es[1..])
  }

  function StripAll(ns: seq<string>, t: string): (r: seq<string>)
    ensures |r| == |ns| && forall i :: 0 <= i < |ns| ==> r[i] == Strip(ns[i], t)
  {
    if ns == [] then [] else [Strip(ns[0], t)] + StripAll(ns[1..], t)
  }

  /** The names the rewrite visits, left to right. `top` tells whether `e` is handed to
      `desubs` itself or is one child of a walked fragment; the two alternate level by level.
      A dictionary handed to `desubs` contributes its keys alone; a dictionary met as a
      child keeps its keys and its values. */
  function Visible(e: QExpr, top: bool): seq<string>
    decreases e
  {
    match e
    case Atom(s) => [s]
    case Symbol(s, _) => [s]
    case List(xs) => VisibleAll(xs, !top)
    case Dict(es) => if top then VisibleKeys(es) else VisibleEntries(es)
    case Select(c, k, g, a) =>
      [SelectMarker] + Visible(c, !top) + Visible(k, !top) + Visible(g, !top) + Visible(a, !top)
    case _ => []
  }

  function VisibleAll(xs: seq<QExpr>, top: bool): seq<string>
    decreases xs
  {
    if xs == [] then [] else Visible(xs[0], top) + VisibleAll(xs[1..], top)
  }

  function VisibleKeys(es: seq<(QExpr, QExpr)>): seq<string>
    decreases es
  {
    if es == [] then []
    else
      assert es[0].0 < es[0];
      Visible(es[0].0, false) + VisibleKeys(es[1..])
  }

  function VisibleEntries(es: seq<(QExpr, QExpr)>): seq<string>
    decreases es
  {
    if es == [] then []
    else
      assert es[0].0 < es[0] && es[0].1 < es[0];
      Visible(es[0].0, true) + Visible(es[0].1, true) + VisibleEntries(es[1..])
  }

  /** A fragment holding no dictionary. */
  predicate DictFree(e: QExpr)
    decreases e
  {
    match e
    case List(xs) => forall i :: 0 <= i < |xs| ==> DictFree(xs[i])
    case Dict(_) => false
    case Select(c, k, g, a) => DictFree(c) && DictFree(k) && DictFree(g) && DictFree(a)
    case _ => true
  }

  /** Without dictionaries the rewrite visits every name of the fragment. */
  lemma {:induction false} VisibleDictFree(e: QExpr, top: bool)
    ensures DictFree(e) ==> Visible(e, top) == Names(e)
    decreases e
  {
    match e
    case List(xs) => VisibleAllDictFree(xs, !top);
    case Select(c, k, g, a) =>
      VisibleDictFree(c, !top);
      VisibleDictFree(k, !top);
      VisibleDictFree(g, !top);
      VisibleDictFree(a, !top);
    case _ =>
  }

  lemma {:induction false} VisibleAllDictFree(xs: seq<QExpr>, top: bool)
    ensures (forall i :: 0 <= i < |xs| ==> DictFree(xs[i])) ==> VisibleAll(xs, top) == NamesOf(xs)
    decreases xs
  {
    if xs != [] {
      VisibleDictFree(xs[0], top);
      VisibleAllDictFree(xs[1..], top);
      if forall i :: 0 <= i < |xs| ==> DictFree(xs[i]) {
        assert forall i :: 0 <= i < |xs[1..]| ==> xs[1..][i] == xs[i + 1];
      }
    }
  }

  lemma StripAllAppend(a: seq<string>, b: seq<string>, t: string)
    ensures StripAll(a + b, t) == StripAll(a, t) + StripAll(b, t)
  {
  }

  lemma MarkerNotScoped(t: string)
    ensures Strip(SelectMarker, t) == SelectMarker
  {
  }

  /** `get` keeps the names of the list it unwraps. */
  lemma GetNames(ys: seq<QExpr>)
    ensures Names(Get(ys)) == NamesOf(ys)
  {
    if |ys| == 1 {
      assert ys[1..] == [];
    }
  }

  /** The rewrite changes exactly the visited names scoped by `t`, removing the scope from
      each, and keeps every other visited name, and the order of all of them. */
  lemma {:induction false} DesubsNames(e: QExpr, t: string)
    ensures Names(Desubs(e, t)) == StripAll(Visible(e, true), t)
    decreases e
  {
    match e
    case Atom(_) =>
    case Symbol(_, _) =>
    case Str(_) =>
    case Num(_) =>
    case Bool(_) =>
    case List(xs) =>
      ChildrenNames(xs, t);
      GetNames(Children(xs, t));
    case Dict(es) =>
      KeysNames(es, t);
      GetNames(KeyChildren(es, t));
    case Select(c, k, g, a) =>
      ChildNames(c, t);
      ChildNames(k, t);
      ChildNames(g, t);
      ChildNames(a, t);
      MarkerNotScoped(t);
      StripAllAppend([SelectMarker] + Visible(c, false) + Visible(k, false) + Visible(g, false), Visible(a, false), t);
      StripAllAppend([SelectMarker] + Visible(c, false) + Visible(k, false), Visible(g, false), t);
      StripAllAppend([SelectMarker] + Visible(c, false), Visible(k, false), t);
      StripAllAppend([SelectMarker], Visible(c, false), t);
  }

  /** The same for one child of a walked fragment. */
  lemma {:induction false} ChildNames(x: QExpr, t: string)
    ensures Names(Child(x, t)) == StripAll(Visible(x, false), t)
    decreases x
  {
    match x
    case Atom(_) =>
    case Symbol(_, _) =>
    case Str(_) =>
    case Num(_) =>
    case Bool(_) =>
    case List(ys) =>
      DesubsAllNames(ys, t);
    case Dict(es) =>
      EntriesNames(es, t);
    case Select(c, k, g, a) =>
      DesubsNames(c, t);
      DesubsNames(k, t);
      DesubsNames(g, t);
      DesubsNames(a, t);
      SelectChildNames(c, k, g, a, t);
  }

  /** The select case of `ChildNames`, given the claim for the select's four parts. */
  lemma SelectChildNames(c: QExpr, k: QExpr, g: QExpr, a: QExpr, t: string)
    requires Names(Desubs(c, t)) == StripAll(Visible(c, true), t)
    requires Names(Desubs(k, t)) == StripAll(Visible(k, true), t)
    requires Names(Desubs(g, t)) == StripAll(Visible(g, true), t)
    requires Names(Desubs(a, t)) == StripAll(Visible(a, true), t)
    ensures Names(Child(Select(c, k, g, a), t)) == StripAll(Visible(Select(c, k, g, a), false), t)
  {
    NamesOfFive(Atom(SelectMarker), Desubs(c, t), Desubs(k, t), Desubs(g, t), Desubs(a, t));
    MarkerNotScoped(t);
    StripAllAppend([SelectMarker] + Visible(c, true) + Visible(k, true) + Visible(g, true), Visible(a, true), t);
    StripAllAppend([SelectMarker] + Visible(c, true) + Visible(k, true), Visible(g, true), t);
    StripAllAppend([SelectMarker] + Visible(c, true), Visible(k, true), t);
    StripAllAppend([SelectMarker], Visible(c, true), t);
  }

  lemma NamesOfOne(x: QExpr)
    ensures NamesOf([x]) == Names(x)
  {
    assert [x][1..] == [];
  }

  lemma {:induction false} NamesOfAppend(xs: seq<QExpr>, ys: seq<QExpr>)
    ensures NamesOf(xs + ys) == NamesOf(xs) + NamesOf(ys)
  {
    if xs != [] {
      assert (xs + ys)[1..] == xs[1..] + ys;
      NamesOfAppend(xs[1..], ys);
    } else {
      assert xs + ys == ys;
    }
  }

  lemma NamesOfFive(a: QExpr, b: QExpr, c: QExpr, d: QExpr, e: QExpr)
    ensures NamesOf([a, b, c, d, e]) == Names(a) + Names(b) + Names(c) + Names(d) + Names(e)
  {
    NamesOfOne(a);
    NamesOfOne(b);
    NamesOfOne(c);
    NamesOfOne(d);
    NamesOfOne(e);
    assert [a, b, c, d, e] == [a] + [b] + [c] + [d] + [e];
    NamesOfAppend([a] + [b] + [c] + [d], [e]);
    NamesOfAppend([a] + [b] + [c], [d]);
    NamesOfAppend([a] + [b], [c]);
    NamesOfAppend([a], [b]);
  }

  lemma {:induction false} ChildrenNames(xs: seq<QExpr>, t: string)
    ensures NamesOf(Children(xs, t)) == StripAll(VisibleAll(xs, false), t)
    decreases xs
  {
    if xs != [] {
      var ys := Children(xs, t);
      assert ys[1..] == Children(xs[1..], t);
      ChildNames(xs[0], t);
      ChildrenNames(xs[1..], t);
      StripAllAppend(Visible(xs[0], false), VisibleAll(xs[1..], false), t);
    }
  }

  lemma {:induction false} DesubsAllNames(xs: seq<QExpr>, t: string)
    ensures NamesOf(DesubsAll(xs, t)) == StripAll(VisibleAll(xs, true), t)
    decreases xs
  {
    if xs != [] {
      var ys := DesubsAll(xs, t);
      assert ys[1..] == DesubsAll(xs[1..], t);
      DesubsNames(xs[0], t);
      DesubsAllNames(xs[1..], t);
      StripAllAppend(Visible(xs[0], true), VisibleAll(xs[1..], true), t);
    }
  }

  lemma {:induction false} EntriesNames(es: seq<(QExpr, QExpr)>, t: string)
    ensures EntryNames(Entries(es, t)) == StripAll(VisibleEntries(es), t)
    decreases es
  {
    if es != [] {
      assert es[0].0 < es[0] && es[0].1 < es[0];
      var rs := Entries(es, t);
      assert rs[1..] == Entries(es[1..], t);
      DesubsNames(es[0].0, t);
      DesubsNames(es[0].1, t);
      EntriesNames(es[1..], t);
      StripAllAppend(Visible(es[0].0, true) + Visible(es[0].1, true), VisibleEntries(es[1..]), t);
      StripAllAppend(Visible(es[0].0, true), Visible(es[0].1, true), t);
    }
  }

  lemma {:induction false} KeysNames(es: seq<(QExpr, QExpr)>, t: string)
    ensures NamesOf(KeyChildren(es, t)) == StripAll(VisibleKeys(es), t)
    decreases es
  {
    if es != [] {
      assert es[0].0 < es[0];
      var rs := KeyChildren(es, t);
      assert rs[1..] == KeyChildren(es[1..], t);
      ChildNames(es[0].0, t);
      KeysNames(es[1..], t);
      StripAllAppend(Visible(es[0].0, false), VisibleKeys(es[1..]), t);
    }
  }

  // ---------------------------------------------------------------------------------------
  // Consequences.

  /** `s` still carries the scope `t` after one `t.` is removed (`t.t.x`). */
  predicate DoublyScoped(s: string, t: string) {
    ScopedBy(s, t) && ScopedBy(s[|t| + 1..], t)
  }

  lemma StripLeavesScope(s: string, t: string)
    ensures ScopedBy(Strip(s, t), t) <==> DoublyScoped(s, t)
    ensures Strip(Strip(s, t), t) == Strip(s, t) <==> !DoublyScoped(s, t)
  {
  }

  /** After the rewrite no name is scoped by `t` exactly when no visited name of the input
      was scoped by `t` twice over. */
  lemma DesubsRemovesScope(e: QExpr, t: string)
    ensures (forall n :: n in Names(Desubs(e, t)) ==> !ScopedBy(n, t))
        <==> (forall n :: n in Visible(e, true) ==> !DoublyScoped(n, t))
  {
    DesubsNames(e, t);
    var ns := Visible(e, true);
    forall i | 0 <= i < |ns| {
      StripLeavesScope(ns[i], t);
    }
  }

  /** When the second pass visits every name the first produced (as it does for a fragment
      with no dictionary), rewriting twice gives the names of rewriting once exactly when no
      visited name of the input is scoped by `t` twice over. */
  lemma DesubsTwiceNames(e: QExpr, t: string)
    ensures Visible(Desubs(e, t), true) == Names(Desubs(e, t)) ==>
              (Names(Desubs(Desubs(e, t), t)) == Names(Desubs(e, t))
               <==> (forall n :: n in Visible(e, true) ==> !DoublyScoped(n, t)))
    ensures DictFree(e) ==>
              (Names(Desubs(Desubs(e, t), t)) == Names(Desubs(e, t))
               <==> (forall n :: n in Names(e) ==> !DoublyScoped(n, t)))
  {
    if DictFree(e) {
      VisibleDictFree(e, true);
      DesubsDictFree(e, t);
      VisibleDictFree(Desubs(e, t), true);
    }
    if Visible(Desubs(e, t), true) == Names(Desubs(e, t)) {
      DesubsTwiceVisited(e, t);
    }
  }

  lemma DesubsTwiceVisited(e: QExpr, t: string)
    requires Visible(Desubs(e, t), true) == Names(Desubs(e, t))
    ensures Names(Desubs(Desubs(e, t), t)) == Names(Desubs(e, t))
            <==> (forall n :: n in Visible(e, true) ==> !DoublyScoped(n, t))
  {
    DesubsNames(e, t);
    DesubsNames(Desubs(e, t), t);
    var ns := Visible(e, true);
    forall i | 0 <= i < |ns| {
      StripLeavesScope(ns[i], t);
    }
    if forall n :: n in ns ==> !DoublyScoped(n, t) {
      assert StripAll(StripAll(ns, t), t) == StripAll(ns, t);
    } else {
      var i :| 0 <= i < |ns| && DoublyScoped(ns[i], t);
      assert StripAll(StripAll(ns, t), t)[i] != StripAll(ns, t)[i];
    }
  }

  /** The rewrite keeps a fragment free of dictionaries. */
  lemma {:induction false} DesubsDictFree(e: QExpr, t: string)
    ensures DictFree(e) ==> DictFree(Desubs(e, t))
    decreases e
  {
    if DictFree(e) {
      match e
      case List(xs) =>
        forall i | 0 <= i < |xs| ensures DictFree(Children(xs, t)[i]) {
          ChildDictFree(xs[i], t);
        }
      case Select(c, k, g, a) =>
        ChildDictFree(c, t);
        ChildDictFree(k, t);
        ChildDictFree(g, t);
        ChildDictFree(a, t);
      case _ =>
    }
  }

  lemma {:induction false} ChildDictFree(x: QExpr, t: string)
    ensures DictFree(x) ==> DictFree(Child(x, t))
    decreases x
  {
    if DictFree(x) {
      match x
      case List(ys) =>
        forall i | 0 <= i < |ys| ensures DictFree(DesubsAll(ys, t)[i]) {
          DesubsDictFree(ys[i], t);
        }
      case Select(c, k, g, a) =>
        DesubsDictFree(c, t);
        DesubsDictFree(k, t);
        DesubsDictFree(g, t);
        DesubsDictFree(a, t);
      case _ =>
    }
  }

  /** A dictionary handed to the rewrite comes back as its rewritten keys, its values gone:
      one key alone, several as a list. */
  lemma DesubsDictKeysOnly()
    ensures Desubs(Dict([(Symbol("t.k", Plain), Symbol("t.v", Plain))]), "t") == Symbol("k", Plain)
    ensures Desubs(Dict([(Symbol("t.a", Plain), Num(1)), (Symbol("b", Plain), Num(2))]), "t")
         == List([Symbol("a", Plain), Symbol("b", Plain)])
  {
    var one := [(Symbol("t.k", Plain), Symbol("t.v", Plain))];
    assert ScopedBy("t.k", "t") && "t.k"[2..] == "k";
    KeyChildrenAt(one, "t", 0);
    assert KeyChildren(one, "t") == [Symbol("k", Plain)];
    var two := [(Symbol("t.a", Plain), Num(1)), (Symbol("b", Plain), Num(2))];
    assert ScopedBy("t.a", "t") && "t.a"[2..] == "a";
    assert !ScopedBy("b", "t");
    KeyChildrenAt(two, "t", 0);
    KeyChildrenAt(two, "t", 1);
    assert KeyChildren(two, "t") == [Symbol("a", Plain), Symbol("b", Plain)];
  }

  /** The rewrite is not idempotent: a doubly scoped name loses one more scope... */
  lemma DesubsNotIdempotent()
    ensures var e := Symbol("t.t.x", Plain);
            Desubs(e, "t") == Symbol("t.x", Plain) && Desubs(Desubs(e, "t"), "t") == Symbol("x", Plain)
  {
    assert ScopedBy("t.t.x", "t");
    assert "t.t.x"[2..] == "t.x";
    assert ScopedBy("t.x", "t");
    assert "t.x"[2..] == "x";
  }

  /** ...and a list holding a one-element list collapses once more. */
  lemma DesubsCollapsesTwice()
    ensures var e := List([List([Atom("a")])]);
            Desubs(e, "t") == List([Atom("a")]) && Desubs(Desubs(e, "t"), "t") == Atom("a")
  {
    assert !ScopedBy("a", "t");
  }

  /** The examples of the `get` and `desubs` docstrings. */
  lemma DocExamples(m: Meta)
    ensures var s := List([Atom("="), Symbol("t.name", Plain), Symbol("Alice", Plain)]);
            Get(s.items) == s
    ensures Get([Symbol("t.name", Plain)]) == Symbol("t.name", Plain)
    ensures Desubs(Symbol("t.name", m), "t") == Symbol("name", Plain)
    ensures Desubs(List([Atom("first"), Symbol("t.name", m)]), "t")
         == List([Atom("first"), Symbol("name", Plain)])
  {
    assert ScopedBy("t.name", "t");
    assert "t.name"[2..] == "name";
    assert !ScopedBy("first", "t");
  }

  /** Only the first dot splits: `t.a.b` becomes `a.b`; another table's names are kept. */
  lemma ComputeAtomExamples()
    ensures ComputeAtom(Symbol("t.a.b", Plain), "t") == Symbol("a.b", Plain)
    ensures ComputeAtom(Symbol("u.name", Plain), "t") == Symbol("u.name", Plain)
    ensures ComputeAtom(Atom("name"), "t") == Atom("name")
  {
    assert ScopedBy("t.a.b", "t");
    assert "t.a.b"[2..] == "a.b";
    assert !ScopedBy("u.name", "t") by { assert "u.name"[0] != "t"[0]; }
  }

  /** What the rewrite does to each kind of fragment: host strings, numbers and booleans pass
      through; lists keep length and order unless they hold one item, which `get` unwraps;
      a dictionary gives its keys alone, as a list unless it has one entry; a select keeps
      its four slots. */
  lemma DesubsShape(e: QExpr, t: string)
    ensures (e.Str? || e.Num? || e.Bool?) ==> Desubs(e, t) == e
    ensures (e.Atom? || e.Symbol?) ==> Desubs(e, t) == ComputeAtom(e, t)
    ensures e.List? && |e.items| != 1 ==>
              var r := Desubs(e, t);
              r.List? && |r.items| == |e.items|
              && forall i :: 0 <= i < |e.items| ==> r.items[i] == Child(e.items[i], t)
    ensures e.List? && |e.items| == 1 ==> Desubs(e, t) == Child(e.items[0], t)
    ensures e.Dict? && |e.entries| != 1 ==>
              var r := Desubs(e, t);
              r.List? && |r.items| == |e.entries|
              && forall i :: 0 <= i < |e.entries| ==> r.items[i] == Child(e.entries[i].0, t)
    ensures e.Dict? && |e.entries| == 1 ==> Desubs(e, t) == Child(e.entries[0].0, t)
    ensures e.Select? ==>
              Desubs(e, t) == Select(Child(e.child, t), Child(e.constraints, t),
                                     Child(e.grouper, t), Child(e.aggregates, t))
  {
    if e.Dict? {
      forall i | 0 <= i < |e.entries| {
        KeyChildrenAt(e.entries, t, i);
      }
    }
  }
}

=== FILE: translate.dfy ===
/** The composition driver: Blaze's `compute` walking an expression tree bottom-up and
    handing each node, with its translated operand(s), to the rule table of
    kdbpy/compute/core.py. Rules that translate a sub-expression of their own (selection,
    summary, group-by, head, slice) call back into the driver, as the source does. */
module Translate {
  import opened QAst
  import opened Scope
  import opened Literals
  import opened Rules
  import opened QEval

  /** An operand of a binary operation: an expression, or a host literal. */
  datatype Operand = Node(e: Expr) | Lit(l: Literal)

  /** The query-expression nodes the rule table knows. */
  datatype Expr =
    | Leaf(name: string)
    | Project(child: Expr, fields: seq<string>)
    | FieldOf(child: Expr, name: string)
    | BinOp(op: string, lhs: Operand, rhs: Operand)
    | Reduction(op: string, child: Expr, axis: seq<int>)
    | UnaryOp(op: string, child: Expr)
    | Selection(child: Expr, cond: Expr)
    | DateTimeAttr(child: Expr, attr: string)
    | Microsecond(child: Expr)
    | Millisecond(child: Expr)
    | Minute(child: Expr)
    | Join(left: Expr, right: Expr, how: string, onLeft: seq<string>, onRight: seq<string>)
    | Sort(child: Expr, key: string, ascending: bool)
    | Summary(child: Expr, names: seq<string>, values: seq<Expr>)
    | By(child: Expr, grouper: Expr, apply: Expr)
    | NElements(child: Expr, axis: seq<int>)
    | Head(child: Expr, n: int)
    | Slice(child: Expr, index: seq<SliceIndex>, record: bool)
    | Distinct(child: Expr)

  /** What the translator looks up but does not define: the operator tables `q.binops` and
      `q.unops`, and the timestamp parser `qify` offers strings to. */
  datatype Tables = Tables(binops: map<string, string>, unops: map<string, string>,
                           parse: string -> Option<Timestamp>)

  // ---------------------------------------------------------------------------------------
  // Leaves and names.

  /** The names of the leaf tables an expression mentions. */
  function Leaves(e: Expr): set<string>
    decreases e
  {
    match e
    case Leaf(name) => {name}
    case BinOp(_, l, r) =>
      (if l.Node? then Leaves(l.e) else {}) + (if r.Node? then Leaves(r.e) else {})
    case Selection(c, cond) => Leaves(c) + Leaves(cond)
    case Join(l, r, _, _, _) => Leaves(l) + Leaves(r)
    case Summary(c, _, vs) => Leaves(c) + LeavesAll(vs)
    case By(c, g, a) => Leaves(c) + Leaves(g) + Leaves(a)
    case _ => Leaves(e.child)
  }

  function LeavesAll(vs: seq<Expr>): set<string>
    decreases vs
  {
    if vs == [] then {} else Leaves(vs[0]) + LeavesAll(vs[1..])
  }

  /** The first leaf in source order (`expr._leaves()[0]`), if any. */
  function FirstLeaf(e: Expr): (r: Option<string>)
    ensures r.Some? ==> r.value in Leaves(e)
  {
    match e
    case Leaf(name) => Some(name)
    case BinOp(_, l, r) =>
      if l.Node? && FirstLeaf(l.e).Some? then FirstLeaf(l.e)
      else if r.Node? then FirstLeaf(r.e)
      else None
    case Join(l, _, _, _, _) => FirstLeaf(l)
    case _ => FirstLeaf(e.child)
  }

  /** `expr._name`: a leaf or a field is named, and a node that keeps its child's shape
      keeps its child's name. Other nodes are left without one here. */
  function ExprName(e: Expr): (r: Option<string>)
    ensures e.Leaf? || e.FieldOf? ==> r == Some(e.name)
  {
    match e
    case Leaf(name) => Some(name)
    case FieldOf(_, name) => Some(name)
    case Project(c, _) => ExprName(c)
    case Selection(c, _) => ExprName(c)
    case Sort(c, _, _) => ExprName(c)
    case Head(c, _) => ExprName(c)
    case Slice(c, _, _) => ExprName(c)
    case Distinct(c) => ExprName(c)
    case _ => None
  }

  /** How many leaves an expression has once every sub-expression bound in the scope stands
      as a leaf of its own: none, one (which), or several. */
  datatype LeafCount = NoLeaf | OneLeaf(leaf: Expr) | ManyLeaves

  /** The leaf count of two operands together; the same leaf twice is one leaf. */
  function Merge(a: LeafCount, b: LeafCount): (r: LeafCount)
    ensures a == NoLeaf ==> r == b
    ensures b == NoLeaf ==> r == a
    ensures r.OneLeaf? <==> (a.OneLeaf? && (b == NoLeaf || b == a)) || (a == NoLeaf && b.OneLeaf?)
  {
    match (a, b)
    case (NoLeaf, _) => b
    case (_, NoLeaf) => a
    case (OneLeaf(x), OneLeaf(y)) => if x == y then a else ManyLeaves
    case _ => ManyLeaves
  }

  /** The leaves `compute_down` receives the data of: the expression's leaves, a bound
      sub-expression standing in for everything below it. */
  function ScopeLeaves(e: Expr, scope: map<Expr, QExpr>): LeafCount
    decreases e
  {
    if e in scope then OneLeaf(e)
    else match e
      case Leaf(_) => OneLeaf(e)
      case BinOp(_, l, r) =>
        Merge(if l.Node? then ScopeLeaves(l.e, scope) else NoLeaf,
              if r.Node? then ScopeLeaves(r.e, scope) else NoLeaf)
      case Selection(c, cond) => Merge(ScopeLeaves(c, scope), ScopeLeaves(cond, scope))
      case Join(l, r, _, _, _) => Merge(ScopeLeaves(l, scope), ScopeLeaves(r, scope))
      case Summary(c, _, vs) => Merge(ScopeLeaves(c, scope), ScopeLeavesAll(vs, scope))
      case By(c, g, a) => Merge(ScopeLeaves(c, scope), Merge(ScopeLeaves(g, scope), ScopeLeaves(a, scope)))
      case _ => ScopeLeaves(e.child, scope)
  }

  function ScopeLeavesAll(vs: seq<Expr>, scope: map<Expr, QExpr>): LeafCount
    decreases vs
  {
    if vs == [] then NoLeaf else Merge(ScopeLeaves(vs[0], scope), ScopeLeavesAll(vs[1..], scope))
  }

  /** With only the leaf table `l` bound, the leaves `compute_down` sees are the table's
      leaves: none, or `l` itself. */
  lemma {:induction false} ScopeLeavesOfOneTable(e: Expr, l: string, data: QExpr)
    requires Leaves(e) <= {l}
    ensures ScopeLeaves(e, map[Leaf(l) := data]) == if Leaves(e) == {} then NoLeaf else OneLeaf(Leaf(l))
    decreases e
  {
    var scope := map[Leaf(l) := data];
    if e in scope {
    } else {
      match e
      case Leaf(_) =>
      case BinOp(_, x, y) =>
        if x.Node? { ScopeLeavesOfOneTable(x.e, l, data); }
        if y.Node? { ScopeLeavesOfOneTable(y.e, l, data); }
      case Selection(c, cond) =>
        ScopeLeavesOfOneTable(c, l, data);
        ScopeLeavesOfOneTable(cond, l, data);
      case Join(x, y, _, _, _) =>
        ScopeLeavesOfOneTable(x, l, data);
        ScopeLeavesOfOneTable(y, l, data);
      case Summary(c, _, vs) =>
        ScopeLeavesOfOneTable(c, l, data);
        ScopeLeavesAllOfOneTable(vs, l, data);
      case By(c, g, a) =>
        ScopeLeavesOfOneTable(c, l, data);
        ScopeLeavesOfOneTable(g, l, data);
        ScopeLeavesOfOneTable(a, l, data);
      case _ =>
        ScopeLeavesOfOneTable(e.child, l, data);
    }
  }

  lemma {:induction false} ScopeLeavesAllOfOneTable(vs: seq<Expr>, l: string, data: QExpr)
    requires LeavesAll(vs) <= {l}
    ensures ScopeLeavesAll(vs, map[Leaf(l) := data]) == if LeavesAll(vs) == {} then NoLeaf else OneLeaf(Leaf(l))
    decreases vs
  {
    if vs != [] {
      ScopeLeavesOfOneTable(vs[0], l, data);
      ScopeLeavesAllOfOneTable(vs[1..], l, data);
    }
  }

  /** The one piece of data `compute_down` receives, when the expression has exactly one
      leaf and it is bound. */
  function LeafData(e: Expr, scope: map<Expr, QExpr>): (r: Option<QExpr>)
    ensures e in scope ==> r == Some(scope[e])
    ensures r.Some? <==> ScopeLeaves(e, scope).OneLeaf? && ScopeLeaves(e, scope).leaf in scope
  {
    match ScopeLeaves(e, scope)
    case OneLeaf(k) => if k in scope then Some(scope[k]) else None
    case _ => None
  }

  /** `nrows(expr, data)`, that is `compute(expr._child.nrows, data)`: the child must have
      exactly one leaf, which `data` is bound to; the count is then that of `data` itself,
      the already translated child (see `NrowsAsWritten`). */
  function Nrows(c: Expr, data: QExpr): (r: Result<QExpr>)
    ensures r.Err? <==> FirstLeaf(c).None? || Leaves(c) != {FirstLeaf(c).value}
    ensures r.Err? ==> r.error == LeafNotUnique
  {
    match FirstLeaf(c)
    case None => Err(LeafNotUnique)
    case Some(l) => if Leaves(c) == {l} then NElementsUp([0], data) else Err(LeafNotUnique)
  }

  /** The head rule on the translated child `data`, with the row count of `nrows`. */
  function HeadRule(c: Expr, n: int, data: QExpr): Result<QExpr> {
    var rows :- Nrows(c, data);
    Ok(HeadUp(n, data, rows))
  }

  /** The slice rule on the translated child `data`: one index, then the row count. */
  function SliceRule(c: Expr, index: seq<SliceIndex>, record: bool, data: QExpr): Result<QExpr> {
    if |index| != 1 then Err(NotSingleSlice)
    else
      var rows :- Nrows(c, data);
      SliceUp(index, data, rows, record)
  }

  // ---------------------------------------------------------------------------------------
  // The driver.

  /** `compute(expr, scope)`: an expression bound in the scope is its binding; everything
      else is translated bottom-up, an element count counting the translation of its child
      (the corrected `compute_down` for `nelements`, see `ComputeAsWritten`). */
  function Compute(e: Expr, scope: map<Expr, QExpr>, tb: Tables): (r: Result<QExpr>)
    decreases e, 2, 0
    ensures e in scope ==> r == Ok(scope[e])
    ensures e !in scope && e.NElements? && e.axis != [0] ==> r.Err?
  {
    if e in scope then Ok(scope[e]) else Up(e, scope, tb)
  }

  /** Blaze's dispatch as the source meets it: a direct `compute_down` rule is tried at the
      root first, and the one for `nelements` receives the data bound to the leaf, not the
      translation of the expression's child. */
  function ComputeAsWritten(e: Expr, scope: map<Expr, QExpr>, tb: Tables): Result<QExpr> {
    if e in scope then Ok(scope[e])
    else if e.NElements? && LeafData(e.child, scope).Some? then
      NElementsUp(e.axis, LeafData(e.child, scope).value)
    else if e.NElements? then
      var _ :- Compute(e.child, scope, tb);
      Err(NoRule)
    else Compute(e, scope, tb)
  }

  /** `compute(expr, data)`: the expression's only leaf bound to `data`. */
  function ComputeWith(e: Expr, data: QExpr, tb: Tables): (r: Result<QExpr>)
    decreases e, 3, 0
    ensures (FirstLeaf(e).None? || Leaves(e) != {FirstLeaf(e).value}) ==> r == Err(LeafNotUnique)
    ensures e.Leaf? ==> r == Ok(data)
  {
    match FirstLeaf(e)
    case None => Err(LeafNotUnique)
    case Some(l) =>
      if Leaves(e) == {l} then Compute(e, map[Leaf(l) := data], tb) else Err(LeafNotUnique)
  }

  /** An expression over one leaf table is computed with that leaf bound. */
  lemma BindsOnlyLeaf(e: Expr, l: string, data: QExpr, tb: Tables)
    requires FirstLeaf(e) == Some(l) && Leaves(e) == {l}
    ensures ComputeWith(e, data, tb) == Compute(e, map[Leaf(l) := data], tb)
  {
  }

  /** The values of a summary from the `i`-th on, each translated against the same scope. */
  function ComputeAll(e: Expr, i: nat, scope: map<Expr, QExpr>, tb: Tables): (r: Result<seq<QExpr>>)
    requires e.Summary? && i <= |e.values|
    decreases e, 0, |e.values| - i
    ensures r.Ok? ==> |r.value| == |e.values| - i
  {
    if i == |e.values| then Ok([])
    else
      assert e.values[i] in e.values;
      var x :- Compute(e.values[i], scope, tb);
      var rest :- ComputeAll(e, i + 1, scope, tb);
      Ok([x] + rest)
  }

  /** The summary values translate exactly when each of them does. */
  lemma {:induction false} ComputeAllOk(e: Expr, i: nat, scope: map<Expr, QExpr>, tb: Tables)
    requires e.Summary? && i <= |e.values|
    ensures ComputeAll(e, i, scope, tb).Ok? <==> forall j :: i <= j < |e.values| ==> Compute(e.values[j], scope, tb).Ok?
  {
    if forall j :: i <= j < |e.values| ==> Compute(e.values[j], scope, tb).Ok? {
      ComputeAllOkIfEach(e, i, scope, tb);
    }
    if ComputeAll(e, i, scope, tb).Ok? {
      ComputeAllOkOnlyIfEach(e, i, scope, tb);
    }
  }

  /** One half of `ComputeAllOk`: values that each translate translate together. */
  lemma {:induction false} ComputeAllOkIfEach(e: Expr, i: nat, scope: map<Expr, QExpr>, tb: Tables)
    requires e.Summary? && i <= |e.values|
    requires forall j :: i <= j < |e.values| ==> Compute(e.values[j], scope, tb).Ok?
    decreases |e.values| - i
    ensures ComputeAll(e, i, scope, tb).Ok?
  {
    if i < |e.values| {
      ComputeAllOkIfEach(e, i + 1, scope, tb);
      ComputeAllStep(e, i, scope, tb);
    }
  }

  /** The other half of `ComputeAllOk`: values that translate together each translate. */
  lemma {:induction false} ComputeAllOkOnlyIfEach(e: Expr, i: nat, scope: map<Expr, QExpr>, tb: Tables)
    requires e.Summary? && i <= |e.values| && ComputeAll(e, i, scope, tb).Ok?
    decreases |e.values| - i
    ensures forall j :: i <= j < |e.values| ==> Compute(e.values[j], scope, tb).Ok?
  {
    if i < |e.values| {
      ComputeAllStep(e, i, scope, tb);
      ComputeAllOkOnlyIfEach(e, i + 1, scope, tb);
      forall j | i <= j < |e.values|
        ensures Compute(e.values[j], scope, tb).Ok?
      {
        if j > i {
          assert i + 1 <= j < |e.values|;
        }
      }
    }
  }

  /** When the summary values translate, each result is that value's own translation, in
      order. */
  lemma {:induction false} ComputeAllAt(e: Expr, i: nat, scope: map<Expr, QExpr>, tb: Tables)
    requires e.Summary? && i <= |e.values| && ComputeAll(e, i, scope, tb).Ok?
    decreases |e.values| - i
    ensures forall j :: i <= j < |e.values| ==>
              Compute(e.values[j], scope, tb).Ok? && ComputeAll(e, i, scope, tb).value[j - i] == Compute(e.values[j], scope, tb).value
  {
    if i < |e.values| {
      ComputeAllStep(e, i, scope, tb);
      var x := Compute(e.values[i], scope, tb);
      var r := ComputeAll(e, i, scope, tb);
      var rest := ComputeAll(e, i + 1, scope, tb);
      assert x.Ok? && rest.Ok?;
      ComputeAllAt(e, i + 1, scope, tb);
      assert r.value == [x.value] + rest.value;
      forall j | i <= j < |e.values|
        ensures Compute(e.values[j], scope, tb).Ok? && r.value[j - i] == Compute(e.values[j], scope, tb).value
      {
        if j > i {
          assert r.value[j - i] == rest.value[j - (i + 1)];
        }
      }
    }
  }

  /** One step of `ComputeAll`: the `i`-th value, then the rest. */
  lemma ComputeAllStep(e: Expr, i: nat, scope: map<Expr, QExpr>, tb: Tables)
    requires e.Summary? && i < |e.values|
    ensures var x := Compute(e.values[i], scope, tb);
            var rest := ComputeAll(e, i + 1, scope, tb);
            ComputeAll(e, i, scope, tb)
            == if x.Err? then Err(x.error) else if rest.Err? then Err(rest.error) else Ok([x.value] + rest.value)
  {
  }

  /** The bottom-up walk: each node's operands are translated first, then its rule. */
  function Up(e: Expr, scope: map<Expr, QExpr>, tb: Tables): (r: Result<QExpr>)
    decreases e, 1, 0
    ensures e in scope ==> r == Ok(scope[e])
    ensures e !in scope && e.Leaf? ==> r == Err(UnboundLeaf)
    ensures e !in scope && e.NElements? && e.axis != [0] ==> r.Err?
  {
    if e in scope then Ok(scope[e])
    else match e
      case Leaf(_) => Err(UnboundLeaf)
      case Project(c, fields) =>
        var d :- Up(c, scope, tb);
        Ok(ProjectionUp(fields, d))
      case FieldOf(c, name) =>
        var d :- Up(c, scope, tb);
        Ok(FieldUp(name, d))
      case BinOp(op, l, r) =>
        (match (l, r)
         case (Node(a), Node(b)) =>
           var x :- Up(a, scope, tb);
           var y :- Up(b, scope, tb);
           BinOpUp(tb.binops, op, x, y)
         case (Node(a), Lit(lit)) =>
           var x :- Up(a, scope, tb);
           BinOpLiteralUp(tb.binops, op, x, lit, true, tb.parse)
         case (Lit(lit), Node(b)) =>
           var y :- Up(b, scope, tb);
           BinOpLiteralUp(tb.binops, op, y, lit, false, tb.parse)
         case (Lit(_), Lit(_)) => Err(NoExpressionOperand))
      case Reduction(op, c, axis) =>
        var d :- Up(c, scope, tb);
        ReductionUp(tb.unops, op, axis, d)
      case UnaryOp(op, c) =>
        var d :- Up(c, scope, tb);
        UnaryUp(tb.unops, op, d)
      case Selection(c, cond) =>
        var d :- Up(c, scope, tb);
        var p :- Compute(cond, map[c := d], tb);
        Ok(SelectionUp(d, p))
      case DateTimeAttr(c, attr) =>
        var d :- Up(c, scope, tb);
        DateTimeUp(attr, d)
      case Microsecond(c) =>
        var d :- Up(c, scope, tb);
        Ok(MicrosecondUp(d))
      case Millisecond(c) =>
        var d :- Up(c, scope, tb);
        MillisecondUp(tb.binops, MicrosecondUp(d))
      case Minute(c) =>
        var d :- Up(c, scope, tb);
        MinuteUp(d)
      case Join(a, b, how, onLeft, onRight) =>
        var x :- Up(a, scope, tb);
        var y :- Up(b, scope, tb);
        JoinUp(how, onLeft, onRight, x, y)
      case Sort(c, key, ascending) =>
        var d :- Up(c, scope, tb);
        Ok(SortUp(d, key, ascending))
      case Summary(c, names, values) =>
        var d :- Up(c, scope, tb);
        var ops :- ComputeAll(e, 0, map[c := d], tb);
        (match FirstLeaf(e)
         case Some(leaf) => Ok(SummaryUp(names, ops, d, leaf))
         case None => Err(UnboundLeaf))
      case By(c, grouper, apply) =>
        var d :- Up(c, scope, tb);
        var parts := ByParts(d);
        var g :- ComputeWith(grouper, parts.0, tb);
        (match ExprName(grouper)
         case None => Err(NoName)
         case Some(name) =>
           var a :- ComputeWith(apply, parts.0, tb);
           ByUp(parts.0, parts.1, name, g, a))
      case NElements(c, axis) =>
        var d :- Up(c, scope, tb);
        NElementsUp(axis, d)
      case Head(c, n) =>
        var d :- Up(c, scope, tb);
        HeadRule(c, n, d)
      case Slice(c, index, record) =>
        var d :- Up(c, scope, tb);
        SliceRule(c, index, record, d)
      case Distinct(c) =>
        var d :- Up(c, scope, tb);
        Ok(DistinctUp(d))
  }

  // ---------------------------------------------------------------------------------------
  // Millisecond as written: `compute(expr._child.microsecond // 1000, data)`.

  /** The millisecond rule as written hands the already translated child `data` to
      `compute` together with the child expression, so the child's leaf is bound to `data`
      and the child is translated a second time on top of it. */
  function MillisecondAsWritten(c: Expr, data: QExpr, tb: Tables): Result<QExpr> {
    ComputeWith(BinOp("//", Node(Microsecond(c)), Lit(Int(1000))), data, tb)
  }

  /** As written, millisecond translates its child again, with the child's leaf bound to
      the child's own translation, and divides that microsecond by 1000. */
  lemma MillisecondAsWrittenRetranslates(c: Expr, l: string, data: QExpr, tb: Tables)
    requires FirstLeaf(c) == Some(l) && Leaves(c) == {l}
    ensures var again := Up(c, map[Leaf(l) := data], tb);
            MillisecondAsWritten(c, data, tb)
            == if again.Ok? then MillisecondUp(tb.binops, MicrosecondUp(again.value)) else Err(again.error)
  {
    var mc := Microsecond(c);
    var e := BinOp("//", Node(mc), Lit(Int(1000)));
    var scope := map[Leaf(l) := data];
    assert Leaves(mc) == Leaves(c);
    assert Leaves(e) == Leaves(mc) + {};
    assert FirstLeaf(mc) == FirstLeaf(c);
    assert FirstLeaf(e) == Some(l);
    BindsOnlyLeaf(e, l, data, tb);
    assert e !in scope && mc !in scope;
    assert Compute(e, scope, tb) == Up(e, scope, tb);
    FloorDivOfMicrosecond(c, scope, tb);
  }

  /** As written, the millisecond of the column `t.ts` reads the member `ts` of `t.ts`. */
  lemma MillisecondAsWrittenOfColumn(t: string, tb: Tables)
    ensures MillisecondAsWritten(FieldOf(Leaf(t), "ts"), Symbol(t + "." + "ts", Plain), tb)
            == MillisecondUp(tb.binops, MicrosecondUp(Symbol(t + "." + "ts" + "." + "ts", Plain)))
  {
    var c := FieldOf(Leaf(t), "ts");
    var d := Symbol(t + "." + "ts", Plain);
    assert Leaves(Leaf(t)) == {t};
    assert Leaves(c) == Leaves(Leaf(t));
    assert FirstLeaf(c) == Some(t);
    FieldOfLeaf(t, "ts", d, tb);
    MillisecondAsWrittenRetranslates(c, t, d, tb);
  }

  /** The corrected millisecond of the column `t.ts` reads `t.ts` once. */
  lemma MillisecondOfColumn(t: string, m: Meta, tb: Tables)
    ensures Compute(Millisecond(FieldOf(Leaf(t), "ts")), map[Leaf(t) := Symbol(t, m)], tb)
            == MillisecondUp(tb.binops, MicrosecondUp(Symbol(t + "." + "ts", Plain)))
  {
    var c := FieldOf(Leaf(t), "ts");
    var scope := map[Leaf(t) := Symbol(t, m)];
    FieldOfLeaf(t, "ts", Symbol(t, m), tb);
    assert Millisecond(c) !in scope;
    assert Compute(Millisecond(c), scope, tb) == Up(Millisecond(c), scope, tb);
  }

  /** For the column `t.ts`, the rule as written reads the member `ts` twice
      (`t.ts.ts`), where the intended millisecond reads `t.ts` once. */
  lemma MillisecondAsWrittenRescopes(t: string, m: Meta, tb: Tables)
    requires "//" in tb.binops
    ensures var d := Symbol(t + "." + "ts", Plain);
            MillisecondAsWritten(FieldOf(Leaf(t), "ts"), d, tb)
            == Ok(Call(tb.binops["//"], [MicrosecondUp(Symbol(t + "." + "ts" + "." + "ts", Plain)), Num(1000)]))
    ensures Compute(Millisecond(FieldOf(Leaf(t), "ts")), map[Leaf(t) := Symbol(t, m)], tb)
            == Ok(Call(tb.binops["//"], [MicrosecondUp(Symbol(t + "." + "ts", Plain)), Num(1000)]))
    ensures MillisecondAsWritten(FieldOf(Leaf(t), "ts"), Symbol(t + "." + "ts", Plain), tb)
            != Compute(Millisecond(FieldOf(Leaf(t), "ts")), map[Leaf(t) := Symbol(t, m)], tb)
  {
    var d := Symbol(t + "." + "ts", Plain);
    var x := Symbol(t + "." + "ts" + "." + "ts", Plain);
    MillisecondAsWrittenOfColumn(t, tb);
    MillisecondOfColumn(t, m, tb);
    assert x != d by {
      assert |x.s| > |d.s|;
    }
    MicrosecondInjective(x, d);
    CallInjective(tb.binops["//"], [MicrosecondUp(x), Num(1000)], [MicrosecondUp(d), Num(1000)]);
  }

  /** Different operands give different microsecond translations. */
  lemma MicrosecondInjective(x: QExpr, y: QExpr)
    ensures MicrosecondUp(x) == MicrosecondUp(y) ==> x == y
  {
    var mx := Call("mod", [Call("long", [x]), Num(NanosPerSecond)]);
    var my := Call("mod", [Call("long", [y]), Num(NanosPerSecond)]);
    CallInjective("floor", [Call("div", [mx, Num(NanosPerMicro)])], [Call("div", [my, Num(NanosPerMicro)])]);
    CallInjective("div", [mx, Num(NanosPerMicro)], [my, Num(NanosPerMicro)]);
    CallInjective("mod", [Call("long", [x]), Num(NanosPerSecond)], [Call("long", [y]), Num(NanosPerSecond)]);
    CallInjective("long", [x], [y]);
  }

  /** The corrected millisecond reuses the microsecond translation of the same child and
      divides it by 1000: it is exactly the translation of `child.microsecond // 1000`. */
  lemma MillisecondIsMicrosecondDiv(c: Expr, scope: map<Expr, QExpr>, tb: Tables)
    requires Millisecond(c) !in scope && BinOp("//", Node(Microsecond(c)), Lit(Int(1000))) !in scope
    requires Microsecond(c) !in scope
    ensures Up(Millisecond(c), scope, tb) == Up(BinOp("//", Node(Microsecond(c)), Lit(Int(1000))), scope, tb)
  {
    MillisecondOfChild(c, scope, tb);
    FloorDivOfMicrosecond(c, scope, tb);
  }

  /** The corrected millisecond rule applied to the child's translation. */
  lemma MillisecondOfChild(c: Expr, scope: map<Expr, QExpr>, tb: Tables)
    requires Millisecond(c) !in scope
    ensures var r := Up(c, scope, tb);
            Up(Millisecond(c), scope, tb) == if r.Ok? then MillisecondUp(tb.binops, MicrosecondUp(r.value)) else Err(r.error)
  {
  }

  /** `child.microsecond // 1000` is the millisecond rule applied to the child's translation. */
  lemma FloorDivOfMicrosecond(c: Expr, scope: map<Expr, QExpr>, tb: Tables)
    requires BinOp("//", Node(Microsecond(c)), Lit(Int(1000))) !in scope && Microsecond(c) !in scope
    ensures var r := Up(c, scope, tb);
            Up(BinOp("//", Node(Microsecond(c)), Lit(Int(1000))), scope, tb)
              == if r.Ok? then MillisecondUp(tb.binops, MicrosecondUp(r.value)) else Err(r.error)
  {
    var r := Up(c, scope, tb);
    var micro := Up(Microsecond(c), scope, tb);
    assert micro == if r.Ok? then Ok(MicrosecondUp(r.value)) else Err(r.error);
    if r.Ok? {
      MillisecondIsFloorDiv(tb.binops, MicrosecondUp(r.value), tb.parse);
    }
  }

  // ---------------------------------------------------------------------------------------
  // The element count as written: `compute_down` for `nelements` at the root.

  /** As written, the element count of a filtered table counts the whole table, whatever
      the filter over that table: the rule receives the data bound to the leaf and never
      sees the filter. */
  lemma NElementsAsWrittenIgnoresFilter(t: string, m: Meta, cond: Expr, tb: Tables)
    requires m.fields != [] && Leaves(cond) <= {t}
    ensures ComputeAsWritten(NElements(Selection(Leaf(t), cond), [0]), map[Leaf(t) := Symbol(t, m)], tb)
         == Ok(Call("count", [Symbol(t, Plain)]))
  {
    ScopeLeavesOfOneTable(Selection(Leaf(t), cond), t, Symbol(t, m));
  }

  /** As written, the element count of any expression over one table, with the table
      bound, is the count of the bound data: `(t.a + 1).nrows` counts the rows of `t`. */
  lemma NElementsAsWrittenOfOneTable(c: Expr, l: string, data: QExpr, tb: Tables)
    requires Leaves(c) == {l}
    ensures ComputeAsWritten(NElements(c, [0]), map[Leaf(l) := data], tb) == NElementsUp([0], data)
  {
    ScopeLeavesOfOneTable(c, l, data);
  }

  /** The one-leaf example with an operator at the top: the count of `t.a + 1` is the count
      of the data bound to `t`. */
  lemma NElementsAsWrittenOfSum(t: string, a: string, data: QExpr, tb: Tables)
    ensures ComputeAsWritten(NElements(BinOp("+", Node(FieldOf(Leaf(t), a)), Lit(Int(1))), [0]),
                             map[Leaf(t) := data], tb)
         == Ok(Call("count", [if data.Symbol? && data.meta.fields != [] then Symbol(data.s, Plain) else data]))
  {
    var c := BinOp("+", Node(FieldOf(Leaf(t), a)), Lit(Int(1)));
    assert Leaves(FieldOf(Leaf(t), a)) == {t};
    assert Leaves(c) == {t};
    NElementsAsWrittenOfOneTable(c, t, data, tb);
  }

  /** `nrows` is `compute(expr._child.nrows, data)` under Blaze's dispatch: for a child over
      one table, the count of `data`; for any other child, `compute` refuses the lone data. */
  lemma NrowsAsWritten(c: Expr, l: string, data: QExpr, tb: Tables)
    requires FirstLeaf(c) == Some(l) && Leaves(c) == {l}
    ensures Nrows(c, data) == ComputeAsWritten(NElements(c, [0]), map[Leaf(l) := data], tb)
    ensures Nrows(c, data).Ok?
  {
    NElementsAsWrittenOfOneTable(c, l, data, tb);
  }

  /** With the corrected rule, the element count of a filtered table counts the filtering
      select, and so differs from the count as written. */
  lemma NElementsOfFilter(t: string, m: Meta, cond: Expr, tb: Tables)
    requires m.fields != [] && Leaves(cond) <= {t} && Compute(cond, map[Leaf(t) := Symbol(t, m)], tb).Ok?
    ensures var scope := map[Leaf(t) := Symbol(t, m)];
            var e := NElements(Selection(Leaf(t), cond), [0]);
            Compute(e, scope, tb)
              == Ok(Call("count", [SelectionUp(Symbol(t, m), Compute(cond, scope, tb).value)]))
            && Compute(e, scope, tb) != ComputeAsWritten(e, scope, tb)
  {
    var scope := map[Leaf(t) := Symbol(t, m)];
    var sel := Selection(Leaf(t), cond);
    SelectionOfLeaf(t, Symbol(t, m), cond, tb);
    assert sel !in scope && NElements(sel, [0]) !in scope;
    CountOfChild(sel, scope, tb);
    NElementsAsWrittenIgnoresFilter(t, m, cond, tb);
    assert Call("count", [Symbol(t, Plain)]).items[1] == Symbol(t, Plain);
  }

  /** With the corrected rule, an element count along the first axis counts the
      translation of its child. */
  lemma CountOfChild(c: Expr, scope: map<Expr, QExpr>, tb: Tables)
    requires NElements(c, [0]) !in scope
    ensures var d := Up(c, scope, tb);
            Compute(NElements(c, [0]), scope, tb) == if d.Ok? then NElementsUp([0], d.value) else Err(d.error)
  {
  }

  /** The corrected driver agrees with the code as written on every expression that is not
      an element count, and on the element count of a bound leaf. */
  lemma NElementsAgreesOnLeaf(e: Expr, scope: map<Expr, QExpr>, tb: Tables)
    ensures !e.NElements? ==> ComputeAsWritten(e, scope, tb) == Compute(e, scope, tb)
    ensures e.NElements? && e.child.Leaf? && e.child in scope ==> ComputeAsWritten(e, scope, tb) == Compute(e, scope, tb)
  {
  }

  // ---------------------------------------------------------------------------------------
  // Failure cases of the driver.

  /** A join other than an inner join, or on differently named keys, never translates. */
  lemma JoinOnlyInner(a: Expr, b: Expr, how: string, onLeft: seq<string>, onRight: seq<string>,
                      scope: map<Expr, QExpr>, tb: Tables)
    requires Join(a, b, how, onLeft, onRight) !in scope
    ensures how != "inner" || onLeft != onRight ==> Compute(Join(a, b, how, onLeft, onRight), scope, tb).Err?
    ensures how != "inner" && Up(a, scope, tb).Ok? && Up(b, scope, tb).Ok? ==>
              Compute(Join(a, b, how, onLeft, onRight), scope, tb) == Err(JoinNotInner)
  {
    var x, y := Up(a, scope, tb), Up(b, scope, tb);
    assert Up(Join(a, b, how, onLeft, onRight), scope, tb)
        == if x.Err? then Err(x.error) else if y.Err? then Err(y.error) else JoinUp(how, onLeft, onRight, x.value, y.value);
  }

  /** A reduction along any axis other than the first never translates. */
  lemma ReductionOnlyFirstAxis(op: string, c: Expr, axis: seq<int>, scope: map<Expr, QExpr>, tb: Tables)
    requires Reduction(op, c, axis) !in scope && axis != [0]
    ensures Compute(Reduction(op, c, axis), scope, tb).Err?
  {
  }

  /** A slice with other than one index never translates; with one it translates exactly
      when its child does and the child has one leaf table (the row count is computed from
      the child alone). */
  lemma SliceOnlyOneIndex(c: Expr, index: seq<SliceIndex>, record: bool, scope: map<Expr, QExpr>, tb: Tables)
    requires Slice(c, index, record) !in scope
    ensures |index| != 1 ==> Compute(Slice(c, index, record), scope, tb).Err?
    ensures |index| == 1 ==> (Compute(Slice(c, index, record), scope, tb).Ok?
                              <==> Up(c, scope, tb).Ok? && Nrows(c, Up(c, scope, tb).value).Ok?)
  {
  }

  /** The head of an expression over two tables does not translate: `nrows` hands the
      translated child to `compute` as the data of a lone leaf, which `compute` refuses. */
  lemma HeadOfJoinRefused(a: string, b: string, on: seq<string>, n: int, scope: map<Expr, QExpr>, tb: Tables)
    requires a != b
    requires var j := Join(Leaf(a), Leaf(b), "inner", on, on);
             Head(j, n) !in scope && Up(j, scope, tb).Ok?
    ensures Compute(Head(Join(Leaf(a), Leaf(b), "inner", on, on), n), scope, tb) == Err(LeafNotUnique)
  {
    var j := Join(Leaf(a), Leaf(b), "inner", on, on);
    assert FirstLeaf(Leaf(a)) == Some(a) && Leaves(Leaf(a)) == {a} && Leaves(Leaf(b)) == {b};
    assert FirstLeaf(j) == Some(a) && Leaves(j) == {a, b};
    assert Nrows(j, Up(j, scope, tb).value) == Err(LeafNotUnique);
  }

  // ---------------------------------------------------------------------------------------
  // Whole translations, evaluated.

  /** `t.head(n)` on a table of rows `v` yields exactly its first min(n, |v|) rows, however
      the table is laid out; a take of n rows that bypassed the clamp would repeat rows. */
  lemma HeadOfTable(t: string, m: Meta, n: int, tb: Tables, env: map<string, Val>, v: seq<int>)
    requires n >= 0 && t in env && env[t] == V(v)
    ensures var r := Compute(Head(Leaf(t), n), map[Leaf(t) := Symbol(t, m)], tb);
            r.Ok? && Eval(r.value, env) == Some(V(v[..if n <= |v| then n else |v|]))
    ensures 0 < |v| < n ==>
              Eval(Compute(Head(Leaf(t), n), map[Leaf(t) := Symbol(t, m)], tb).value, env)
              != Eval(Call("take", [Num(n), Symbol(t, m)]), env)
  {
    var d := Symbol(t, m);
    var scope := map[Leaf(t) := d];
    assert Up(Leaf(t), scope, tb) == Ok(d);
    var rows := NElementsUp([0], d).value;
    assert Nrows(Leaf(t), d) == Ok(rows);
    assert Up(Head(Leaf(t), n), scope, tb) == Ok(HeadUp(n, d, rows));
    assert Compute(Head(Leaf(t), n), scope, tb) == Ok(HeadUp(n, d, rows));
    CountsRows(t, m, env, v);
    HeadTakesMin(n, t, m, rows, env, v);
    if 0 < |v| < n {
      NaiveTakeRepeats(n, t, m, env, v);
    }
  }

  /** The slice of a bound leaf table is the slice rule on the table's data. */
  lemma SliceOfLeaf(t: string, index: seq<SliceIndex>, record: bool, d: QExpr, tb: Tables)
    ensures Compute(Slice(Leaf(t), index, record), map[Leaf(t) := d], tb) == SliceRule(Leaf(t), index, record, d)
  {
    assert Up(Leaf(t), map[Leaf(t) := d], tb) == Ok(d);
  }

  /** `t[start:stop]` on a table of rows `v` yields Python's slice of the rows, whatever the
      bounds. */
  lemma RangeOfTable(t: string, m: Meta, start: Option<int>, stop: Option<int>, tb: Tables,
                     env: map<string, Val>, v: seq<int>)
    requires t in env && env[t] == V(v)
    ensures var r := Compute(Slice(Leaf(t), [Range(start, stop)], false), map[Leaf(t) := Symbol(t, m)], tb);
            r.Ok? && Eval(r.value, env) == Some(V(PySlice(v, start, stop)))
  {
    var d := Symbol(t, m);
    var rows := NElementsUp([0], d).value;
    SliceOfLeaf(t, [Range(start, stop)], false, d, tb);
    assert Nrows(Leaf(t), d) == Ok(rows);
    assert SliceRule(Leaf(t), [Range(start, stop)], false, d) == Ok(SliceRange(start, stop, d, rows));
    CountsRows(t, m, env, v);
    SliceRangeIsPythonSlice(start, stop, t, m, rows, env, v);
  }

  /** `t[i]` on a table of rows `v`, for an index inside the table, yields that row, counted
      from the end when negative; a record result is a one-row table. */
  lemma RowOfTable(t: string, m: Meta, i: int, record: bool, tb: Tables, env: map<string, Val>, v: seq<int>)
    requires t in env && env[t] == V(v) && -|v| <= i < |v|
    ensures var r := Compute(Slice(Leaf(t), [SliceIndex.At(i)], record), map[Leaf(t) := Symbol(t, m)], tb);
            && r.Ok?
            && (!record ==> Eval(r.value, env) == Some(I(v[Bound(i, |v|)])))
            && (record ==> Eval(r.value, env) == Some(V([v[Bound(i, |v|)]])))
  {
    var d := Symbol(t, m);
    var rows := NElementsUp([0], d).value;
    SliceOfLeaf(t, [SliceIndex.At(i)], record, d, tb);
    assert Nrows(Leaf(t), d) == Ok(rows);
    assert SliceRule(Leaf(t), [SliceIndex.At(i)], record, d) == Ok(SliceAt(i, d, rows, record));
    CountsRows(t, m, env, v);
    SliceAtRow(i, t, m, rows, record, env, v);
  }

  // ---------------------------------------------------------------------------------------
  // Composition: filter, group-by and aggregate collapse into one select.

  /** A field of a leaf table, with the leaf bound, is the field rule applied to the bound
      data. */
  lemma FieldOfLeaf(t: string, name: string, d: QExpr, tb: Tables)
    ensures Up(FieldOf(Leaf(t), name), map[Leaf(t) := d], tb) == Ok(FieldUp(name, d))
    ensures Compute(FieldOf(Leaf(t), name), map[Leaf(t) := d], tb) == Ok(FieldUp(name, d))
  {
    assert Up(Leaf(t), map[Leaf(t) := d], tb) == Ok(d);
  }

  /** A summary over a leaf table, with the leaf bound, is the summary rule applied to the
      bound data and to its values translated against the same binding. */
  lemma SummaryOfLeaf(t: string, d: QExpr, names: seq<string>, values: seq<Expr>, tb: Tables)
    requires ComputeAll(Summary(Leaf(t), names, values), 0, map[Leaf(t) := d], tb).Ok?
    ensures Up(Summary(Leaf(t), names, values), map[Leaf(t) := d], tb)
         == Ok(SummaryUp(names, ComputeAll(Summary(Leaf(t), names, values), 0, map[Leaf(t) := d], tb).value, d, t))
  {
    var scope := map[Leaf(t) := d];
    var e := Summary(Leaf(t), names, values);
    assert e !in scope;
    assert Up(Leaf(t), scope, tb) == Ok(d);
    assert FirstLeaf(e) == Some(t);
  }

  /** A filter of a leaf table, with the leaf bound, is the selection rule applied to the
      bound data and the predicate translated against the same binding. */
  lemma SelectionOfLeaf(t: string, d: QExpr, cond: Expr, tb: Tables)
    requires Compute(cond, map[Leaf(t) := d], tb).Ok?
    ensures Up(Selection(Leaf(t), cond), map[Leaf(t) := d], tb)
         == Ok(SelectionUp(d, Compute(cond, map[Leaf(t) := d], tb).value))
  {
    assert Up(Leaf(t), map[Leaf(t) := d], tb) == Ok(d);
  }

  /** A column of a leaf table, as a grouper, is translated with the leaf bound. */
  lemma GrouperOfLeaf(t: string, g: string, d: QExpr, tb: Tables)
    ensures ComputeWith(FieldOf(Leaf(t), g), d, tb) == Ok(FieldUp(g, d))
  {
    FieldOfLeaf(t, g, d, tb);
    assert FirstLeaf(FieldOf(Leaf(t), g)) == Some(t);
    assert Leaves(FieldOf(Leaf(t), g)) == {t};
    BindsOnlyLeaf(FieldOf(Leaf(t), g), t, d, tb);
  }

  /** A group-by whose operand, grouper and apply all translate goes through the group-by
      rule with the grouper's name. */
  lemma ByOfParts(c: Expr, grouper: Expr, apply: Expr, scope: map<Expr, QExpr>, tb: Tables, d: QExpr, name: string)
    requires By(c, grouper, apply) !in scope
    requires Up(c, scope, tb) == Ok(d) && ExprName(grouper) == Some(name)
    requires ComputeWith(grouper, ByParts(d).0, tb).Ok? && ComputeWith(apply, ByParts(d).0, tb).Ok?
    ensures Compute(By(c, grouper, apply), scope, tb)
         == ByUp(ByParts(d).0, ByParts(d).1, name, ComputeWith(grouper, ByParts(d).0, tb).value,
                 ComputeWith(apply, ByParts(d).0, tb).value)
  {
    assert Compute(By(c, grouper, apply), scope, tb) == Up(By(c, grouper, apply), scope, tb);
  }

  /** A group-by by a column of a filtered leaf table hands the group-by rule the table,
      the filter's constraints, the column's name and translation, and the translated
      apply. */
  lemma ByOverFilter(t: string, m: Meta, cond: Expr, g: string, apply: Expr, tb: Tables)
    requires Compute(cond, map[Leaf(t) := Symbol(t, m)], tb).Ok?
    requires FirstLeaf(apply) == Some(t) && Leaves(apply) == {t}
    requires Compute(apply, map[Leaf(t) := Symbol(t, m)], tb).Ok?
    ensures var d := Symbol(t, m);
            var scope := map[Leaf(t) := d];
            var parts := ByParts(SelectionUp(d, Compute(cond, scope, tb).value));
            Compute(By(Selection(Leaf(t), cond), FieldOf(Leaf(t), g), apply), scope, tb)
            == ByUp(parts.0, parts.1, g, FieldUp(g, d), Compute(apply, scope, tb).value)
  {
    var d := Symbol(t, m);
    var scope := map[Leaf(t) := d];
    var sel := SelectionUp(d, Compute(cond, scope, tb).value);
    SelectionOfLeaf(t, d, cond, tb);
    assert ByParts(sel).0 == d;
    GrouperOfLeaf(t, g, d, tb);
    BindsOnlyLeaf(apply, t, d, tb);
    ByOfParts(Selection(Leaf(t), cond), FieldOf(Leaf(t), g), apply, scope, tb, sel, g);
  }

  /** A group-by of a table by one of its columns: one select over the table with an empty
      constraint clause, the column under its own name, and the aggregates of the
      translated apply, all with the table's scope stripped. */
  lemma GroupTableByColumn(t: string, m: Meta, g: string, apply: Expr, tb: Tables)
    requires '.' !in t && !ScopedBy(g, t)
    requires FirstLeaf(apply) == Some(t) && Leaves(apply) == {t}
    requires var a := Compute(apply, map[Leaf(t) := Symbol(t, m)], tb); a.Ok? && a.value.Select?
    ensures var d := Symbol(t, m);
            var scope := map[Leaf(t) := d];
            Compute(By(Leaf(t), FieldOf(Leaf(t), g), apply), scope, tb)
            == Ok(Select(d, List([NoConstraints]), Dict([(Symbol(g, Plain), Symbol(g, Plain))]),
                         Child(Compute(apply, scope, tb).value.aggregates, t)))
  {
    var d := Symbol(t, m);
    var scope := map[Leaf(t) := d];
    var a := Compute(apply, scope, tb).value;
    assert Up(Leaf(t), scope, tb) == Ok(d);
    assert ByParts(d).0 == d;
    GrouperOfLeaf(t, g, d, tb);
    BindsOnlyLeaf(apply, t, d, tb);
    ByOfParts(Leaf(t), FieldOf(Leaf(t), g), apply, scope, tb, d, g);
    ByOverTable(t, m, g, FieldUp(g, d), a);
    FieldThenDesubs(g, t, m);
    assert ComputeAtom(Symbol(g, Plain), t) == Symbol(g, Plain);
  }

  /** `by(t[cond].g, apply)` with `apply` a summary over `t`: one select over the table
      itself, holding the filter's clause, the grouping column under its own name and the
      summary's aggregates, all with the table's scope stripped. */
  lemma FilterGroupCollapses(t: string, m: Meta, cond: Expr, g: string, names: seq<string>, values: seq<Expr>,
                             tb: Tables)
    requires '.' !in t && !ScopedBy(g, t)
    requires Leaves(Summary(Leaf(t), names, values)) == {t}
    requires Compute(cond, map[Leaf(t) := Symbol(t, m)], tb).Ok?
    requires ComputeAll(Summary(Leaf(t), names, values), 0, map[Leaf(t) := Symbol(t, m)], tb).Ok?
    ensures var d := Symbol(t, m);
            var scope := map[Leaf(t) := d];
            var p := Compute(cond, scope, tb).value;
            var ops := ComputeAll(Summary(Leaf(t), names, values), 0, scope, tb).value;
            Compute(By(Selection(Leaf(t), cond), FieldOf(Leaf(t), g), Summary(Leaf(t), names, values)), scope, tb)
            == Ok(Select(d, List([List([Desubs(p, t)])]), Dict([(Symbol(g, Plain), Symbol(g, Plain))]),
                         Child(SummaryUp(names, ops, d, t).aggregates, t)))
  {
    var d := Symbol(t, m);
    var scope := map[Leaf(t) := d];
    var p := Compute(cond, scope, tb).value;
    var apply := Summary(Leaf(t), names, values);
    var ops := ComputeAll(apply, 0, scope, tb).value;
    var a := SummaryUp(names, ops, d, t);
    SummaryOfLeaf(t, d, names, values, tb);
    assert FirstLeaf(apply) == Some(t);
    assert Compute(apply, scope, tb) == Ok(a);
    ByOverFilter(t, m, cond, g, apply, tb);
    SummaryShape(names, ops, d, t);
    ByMergesSelection(t, m, p, g, FieldUp(g, d), a);
    FieldThenDesubs(g, t, m);
    assert ComputeAtom(Symbol(g, Plain), t) == Symbol(g, Plain);
  }
}
